=== FILE: README.md ===
# AWS CLI install recipe, modelled in Dafny

This project models the Chef recipe `cookbooks/awscli/recipes/default.rb`. The recipe
installs version 2 of the AWS command line interface on a Linux node. One converge of
the recipe:

1. derives the architecture (`aarch64` or `x86_64`), the version suffix, the cached zip
   name `awscliv2<suffix>.zip` and the download URL from the node's `arm?` flag and
   `node[:awscli][:version]`;
2. deletes the unpack directory `<cache>/awscli` recursively;
3. deletes every cached `awscliv2*.zip` except the archive it is about to fetch;
4. downloads the archive, ignoring a failure, and extracts it when the download
   changed the cached file;
5. when the extraction ran, runs the `install-awscli` block:
   - reads the version off the first word of `aws --version`;
   - creates `/opt/awscli/v2/<version>/bin`;
   - moves `dist` there and links `bin/aws` and `bin/aws_completer` to it;
   - repoints the `/opt/awscli/v2/current` link at the new directory;
   - deletes every version directory beyond the five newest by mtime.

The model has one module per file (`paths.dfy` also holds a small `Optional` module):

- `Paths` (`paths.dfy`): literal paths, `Join`, `Basename`, and the "is below" relation
  `Within`.
- `FileSystem` (`filesystem.dfy`): the host's filesystem as a map from path to entry
  (directory with mtime, regular file, or symbolic link). A `Host` class holds that map.
  Its methods are the Ruby `FileUtils` calls the recipe makes (`mkdir_p`, `mv` with
  `force`, `ln_sf`, `rm_f`, `rm_rf`) and Chef's file deletion. Each one updates the map
  in place.
- `Naming` (`naming.dfy`): the suffix, zip name and URL, with their inverse functions.
- `StaleZips` (`stale_zips.dfy`): the two clean-ups in the cache directory.
- `VersionParse` (`version_parse.dfy`): Ruby's `split(" ").first.split("/").last` on the
  banner. It comes with independent reference definitions: the leading token, and the
  basename after trimming trailing slashes.
- `Retention` (`retention.dfy`): listing, newest-first ordering and removal of old
  versions.
- `Installer` (`installer.dfy`): the `install-awscli` block.
- `Recipe` (`recipe.dfy`): one converge, its resources run in order. The notifications
  (`subscribes ... :immediately`) are explicit branches on what the download reported.

## Model

| member | source | states |
|---|---|---|
| Naming.Arch | cookbooks/awscli/recipes/default.rb:23-27 | the architecture is `aarch64` exactly on an ARM node and `x86_64` otherwise; neither name is a prefix of the other, so a URL can be read back |
| Naming.VersionSuffix | cookbooks/awscli/recipes/default.rb:29-33 | the suffix is empty if and only if the configured version is `latest`; otherwise it is a dash followed by the version |
| Naming.ZipName | cookbooks/awscli/recipes/default.rb:35 | for a version without a slash, the cached zip name `awscliv2<suffix>.zip` is one the clean-up glob `awscliv2*.zip` matches |
| Naming.DownloadUrl | cookbooks/awscli/recipes/default.rb:55 | the download URL reads back as the (arm flag, version) pair it was built from |
| Naming.SuffixRoundTrip | cookbooks/awscli/recipes/default.rb:29-33 | reading a suffix back gives version `v` exactly when `v`'s suffix is that text, so distinct versions never share a suffix |
| Naming.TailRoundTrip | cookbooks/awscli/recipes/default.rb:29-35 | the `<suffix>.zip` tail determines the version, in both directions |
| Naming.ZipNameRoundTrip | cookbooks/awscli/recipes/default.rb:35 | the cached zip name determines the configured version, and only that version's own name reads back as it |
| Naming.DownloadUrlRoundTrip | cookbooks/awscli/recipes/default.rb:55 | a URL reads back as (arm flag, version) exactly when it is that pair's download URL |
| Naming.UrlOfRelease | cookbooks/awscli/recipes/default.rb:55 | any URL that reads back as a release is that release's download URL |
| Naming.ZipAndUrlShareSuffix | cookbooks/awscli/recipes/default.rb:55 | the URL ends in the same `<suffix>.zip` as the cached zip name, and both read back to the configured version |
| StaleZips.ZipGlob | cookbooks/awscli/recipes/default.rb:37-43 | every match is an entry inside the cache directory whose name has the glob's form; the cached archive of every slash-free version is matched when it exists; the unpack directory `<cache>/awscli` never is, so the zip clean-up leaves it alone |
| StaleZips.TargetByName | cookbooks/awscli/recipes/default.rb:45 | a path in the cache directory is the target archive exactly when its name reads back as the configured version |
| StaleZips.StaleZips | cookbooks/awscli/recipes/default.rb:43-45 | a match is deleted exactly when its name does not read back as the configured version, so the target archive is the one match kept |
| StaleZips.RemoveUnpackDir | cookbooks/awscli/recipes/default.rb:38-41 | a missing unpack path (or a dangling link) is a no-op; a non-directory there fails the run and changes nothing; a directory is removed with everything below it |
| StaleZips.RemoveStaleZips | cookbooks/awscli/recipes/default.rb:43-50 | whatever order the glob lists the matches in: nothing is added or altered; every path that is not a stale match stays; a stale match that is a file or directory is deleted; one that `File.exist?` reports missing (a dangling link) stays; every stale match left does not resolve |
| StaleZips.CleanupKeeps | cookbooks/awscli/recipes/default.rb:45 | the target archive and every path the glob does not match survive the cleanup unchanged |
| StaleZips.CleanupLeavesOnlyTarget | cookbooks/awscli/recipes/default.rb:43-50 | after the cleanup every glob match other than the target archive is a link that does not resolve, and the target is still matched when it existed |
| StaleZips.CleanupIdempotent | cookbooks/awscli/recipes/default.rb:44-51 | a second cleanup with the same configuration deletes nothing |
| StaleZips.TargetOutsideUnpackDir | cookbooks/awscli/recipes/default.rb:38 | the cached archive is not below the unpack directory, so the recursive delete cannot reach it |
| StaleZips.CleanedKeepsTarget | cookbooks/awscli/recipes/default.rb:37-51 | both clean-ups together keep an existing target archive, entry unchanged |
| StaleZips.CleanedLeavesOnlyTarget | cookbooks/awscli/recipes/default.rb:37-50 | after both clean-ups the unpack directory does not resolve, every match other than the target archive is a dangling link, and repeating them deletes nothing more |
| FileSystem.Host.Remove | cookbooks/awscli/recipes/default.rb:47-50 | Chef's `file ... action :delete` removes exactly that entry when `File.exist?` holds of it (it resolves), and changes nothing when it does not, so a dangling link stays |
| FileSystem.Host.PutFile | cookbooks/awscli/recipes/default.rb:54-61 | a download that changed the cache writes a regular file at the target path and changes nothing else |
| FileSystem.Host.MkdirP | cookbooks/awscli/recipes/default.rb:83 | `mkdir_p` only adds entries; every new entry is a directory of the missing chain, with mtime `now`; success means the whole chain exists; when no part of it existed it succeeds; a failure names a non-directory that already stood on the chain |
| FileSystem.Host.CreateDirs | cookbooks/awscli/recipes/default.rb:83 | the creation loop of `mkdir_p`: the same frame and outcome guarantees, for a given chain |
| FileSystem.Host.MvForce | cookbooks/awscli/recipes/default.rb:84 | `mv` with `force` renames the source and everything below it to the destination, which is inside the destination when that is a directory; every case where the rename raises leaves the tree unchanged |
| FileSystem.Host.LnSf | cookbooks/awscli/recipes/default.rb:85-89 | `ln_sf` puts a link at the destination (inside it when it resolves to a directory) and replaces a non-directory there; a real directory at the destination fails and changes nothing |
| FileSystem.Host.RmF | cookbooks/awscli/recipes/default.rb:88 | `rm_f` removes a file or link and leaves a directory or a missing path as it was |
| FileSystem.Host.RmRf | cookbooks/awscli/recipes/default.rb:97 | `rm_rf` removes the path and, for a real directory, everything below it |
| VersionParse.FirstWordIsLeadingToken | cookbooks/awscli/recipes/default.rb:79 | Ruby's `split(" ").first` is None for output made only of separators, and otherwise the maximal run of non-separators after the leading separators |
| VersionParse.LastSlashFieldIsBasename | cookbooks/awscli/recipes/default.rb:79 | `split("/").last` is None for an all-slash token, and otherwise the basename of the token with its trailing slashes removed |
| VersionParse.VersionOfToken | cookbooks/awscli/recipes/default.rb:79 | `split("/").last` of a token `<prefix>/<v>` or `<v>`, optionally followed by trailing slashes, is `v` |
| VersionParse.VersionOfBanner | cookbooks/awscli/recipes/default.rb:79 | a banner `<name>/<v><separator><anything>` gives version `v` |
| VersionParse.ParseAwsCliBanner | cookbooks/awscli/recipes/default.rb:73 | the example banner in the recipe's comment gives `2.12.6` |
| VersionParse.ParseVersionAsWritten | cookbooks/awscli/recipes/default.rb:79 | the recipe's parse has no first word to split, and Ruby raises, exactly when the output is empty or only separators |
| VersionParse.ParseVersion | cookbooks/awscli/recipes/default.rb:79-81 | every version the corrected parse gives is a non-empty name without slashes, so the install directory is a direct child of `/opt/awscli/v2` |
| VersionParse.SlashTokenPublishesEmptyVersion | cookbooks/awscli/recipes/default.rb:79-81 | on output `/ aws` the parse as written gives the empty version, and the corrected parse gives none |
| VersionParse.AsWrittenDiffersOnlyOnSlashTokens | cookbooks/awscli/recipes/default.rb:79 | the corrected parse agrees with the one as written except when the first token is made only of slashes |
| Retention.Candidates | cookbooks/awscli/recipes/default.rb:92 | the candidates are directories directly inside `/opt/awscli/v2` other than `current`, and no candidate lies below another |
| Retention.ToDelete | cookbooks/awscli/recipes/default.rb:94 | `versions[5..] \|\| []` deletes only listed versions, and deletes none exactly when at most five are listed |
| Retention.Kept | cookbooks/awscli/recipes/default.rb:94 | the kept entries followed by the deleted ones are the whole list, and at most five are kept |
| Retention.InsertByMtime | cookbooks/awscli/recipes/default.rb:93 | inserting into a newest-first list gives a newest-first list holding the same entries, each as often, plus the new one |
| Retention.Listing | cookbooks/awscli/recipes/default.rb:92 | the glob result as a list: distinct entries, exactly the paths of the set |
| Retention.SortNewestFirst | cookbooks/awscli/recipes/default.rb:93 | `sort_by! { mtime }.reverse!` yields a permutation of the list, ordered newest first |
| Retention.RemoveEach | cookbooks/awscli/recipes/default.rb:96-98 | `rm_rf` of each entry in turn leaves the old tree minus everything each removal reaches |
| Retention.Prune | cookbooks/awscli/recipes/default.rb:92-98 | the order used lists every candidate (a directory entry of `/opt/awscli/v2` other than `current`) once, newest first; the new tree is the old one minus what `rm_rf` of the entries from index 5 on removes |
| Retention.PruneCount | cookbooks/awscli/recipes/default.rb:94 | taking the entries from index 5 on (or none) deletes exactly max(0, n - 5) of the n candidates: nothing when there are at most five, and an entry is deleted exactly when it is not among the first five |
| Retention.NewestFirstPairwise | cookbooks/awscli/recipes/default.rb:93 | in a newest-first list every entry is at least as new as every later one |
| Retention.PruneKeepsNewest | cookbooks/awscli/recipes/default.rb:93-94 | every deleted version is no newer than every kept one |
| Retention.PruneBound | cookbooks/awscli/recipes/default.rb:91-98 | after the prune the only version directories left are the kept ones, at most five |
| Retention.PruneRemovesOnlyBelowDeleted | cookbooks/awscli/recipes/default.rb:96-98 | a path removed by the prune lies at or below some deleted version |
| Retention.KeptWhenFewNewer | cookbooks/awscli/recipes/default.rb:91-98 | a candidate that fewer than five other candidates are at least as new as is kept, not deleted |
| Retention.DistinctWithin | cookbooks/awscli/recipes/default.rb:93-94 | a list without repeats drawn from a set is no longer than the set |
| Retention.PruneKeepsCurrent | cookbooks/awscli/recipes/default.rb:92 | the `current` link is never a candidate, so the prune leaves it exactly as it was |
| Installer.InstallDir | cookbooks/awscli/recipes/default.rb:81 | for a version without a slash, the install directory is the child of `/opt/awscli/v2` named after the version |
| Installer.FreshStack | cookbooks/awscli/recipes/default.rb:83 | on a fresh install `mkdir_p` starts with `bin` and the install directory, neither of which exists yet; `/opt/awscli/v2` and its parents may be missing too |
| Installer.PlaceDist | cookbooks/awscli/recipes/default.rb:83-84 | nothing outside the unpacked tree, the install directory and the directories above `bin` changes; on a fresh install both steps succeed, the install directory is new with mtime `now`, and every entry of the unpacked `dist` sits at the same relative path below `<install>/dist` |
| Installer.LinkTool | cookbooks/awscli/recipes/default.rb:85 | one `ln_sf` changes nothing outside the install; a real directory where the link would go fails the run unchanged; otherwise the link replaces whatever was there; in particular, unless `bin/<tool>` resolves to a directory, afterwards `bin/<tool>` is exactly a link to `dist/<tool>` |
| Installer.LinkTools | cookbooks/awscli/recipes/default.rb:85-86 | nothing outside the install changes, and only a directory in the way can fail it; unless a link path resolves to a directory when its turn comes, the new tree is the old one with `bin/aws` and then `bin/aws_completer` set to links to their `dist` files, replacing whatever was there, as a reinstall meets |
| Installer.PlaceFiles | cookbooks/awscli/recipes/default.rb:83-86 | nothing outside the install changes; on a fresh install it succeeds, the install directory is new, the whole unpacked `dist` tree is below `<install>/dist`, and both tools are linked from `bin` |
| Installer.FreshMkdirInstall | cookbooks/awscli/recipes/default.rb:83 | a successful `mkdir_p` on a fresh install creates the install directory with mtime `now` |
| Installer.FreshMkdirLeavesFree | cookbooks/awscli/recipes/default.rb:83-86 | `mkdir_p` on a fresh install creates neither `dist` nor the two `bin` links |
| Installer.FreshMkdirSource | cookbooks/awscli/recipes/default.rb:83-84 | `mkdir_p` on a fresh install leaves the unpacked tree alone, and the install's `dist` is not inside it |
| Installer.FreshAfterMove | cookbooks/awscli/recipes/default.rb:84 | after the move on a fresh install the whole unpacked tree sits below `<install>/dist` and the `bin` links are still free |
| Installer.DistMovedAfterPut | cookbooks/awscli/recipes/default.rb:85-89 | writing outside the install's `dist` keeps the moved tree in place |
| Installer.CurrentUntouched | cookbooks/awscli/recipes/default.rb:83-89 | placing the install never touches the `current` link |
| Installer.Repoint | cookbooks/awscli/recipes/default.rb:88-89 | unless `current` is a real directory, afterwards `current` is exactly a link to the install directory and nothing else changed; a real directory there gets the link placed inside it, which fails when a directory is in the way |
| Installer.RepointFrame | cookbooks/awscli/recipes/default.rb:83-89 | placing the install and then repointing `current`, whichever outcome the repoint has, change nothing outside the install directory, its `bin` links, the unpacked `dist` and `current` |
| Installer.KeptInstallUntouched | cookbooks/awscli/recipes/default.rb:92-98 | a prune that keeps the new install removes nothing inside it |
| Installer.CurrentApart | cookbooks/awscli/recipes/default.rb:81-89 | `current` is neither the install directory, nor a `bin` link, nor below `dist` |
| Installer.PublishedAfterRepoint | cookbooks/awscli/recipes/default.rb:83-89 | repointing `current` after a fresh placement gives the install in place, `current` linked to it and everything else unchanged |
| Installer.NewInstallKept | cookbooks/awscli/recipes/default.rb:91-98 | the new install, with mtime `now`, is not deleted when fewer than five other versions are at least as new |
| Installer.InstallSurvivesPrune | cookbooks/awscli/recipes/default.rb:91-98 | a prune that keeps the new install leaves its directory, its `bin` links and the moved `dist` tree in place |
| Installer.InstallBlock | cookbooks/awscli/recipes/default.rb:76-98 | output from which no version is read fails the run before anything changes; a success implies a version was read, and the tree the prune starts from agrees with the tree before the block on every path outside the install directory, its `bin` links, the unpacked `dist` and `current`; every successful run prunes: the order lists exactly the candidates of the tree before the prune, newest first, the prune removes what `rm_rf` of the entries from index 5 on reaches, and at most five versions remain; when `current` was not a real directory (and the version is not `current` and the cache is outside `/opt/awscli/v2`), a success leaves `current` linked to the install; on a fresh install it succeeds, the tree before the prune has the install in place and everything else as it was, the install is kept when fewer than five other versions are at least as new, and when kept it is intact |
| Recipe.Placed | cookbooks/awscli/recipes/default.rb:64-67 | every extracted entry sits at its relative path below the destination, and nothing lands outside it |
| Recipe.Extract | cookbooks/awscli/recipes/default.rb:64-70 | a missing archive fails the run and changes nothing; a destination that exists (resolves) is left alone, nothing is extracted and nothing notified; a dangling link there makes `mkdir_p` raise, failing the run unchanged; a missing destination is created with mtime `now`, the archive's entries are placed below it, and the install block is notified |
| Recipe.OnDownload | cookbooks/awscli/recipes/default.rb:57-98 | after a download that changed the cache: a missing archive fails and nothing is installed; a dangling link at the unpack path means nothing is installed, and the run fails unless writing the archive made the link resolve; a missing unpack path is extracted, which notifies the install block, and output from which no version is read then fails the run |
| Recipe.Converge | cookbooks/awscli/recipes/default.rb:20-102 | the URL fetched is the download URL of the node's release; a non-directory at the unpack path fails the run unchanged; a download that did not change the cache leaves the tree as the two clean-ups leave it and does not install; a download with no archive fails the run; with a dangling link at the unpack path nothing is installed and the run fails unless the download made the link resolve; otherwise the install block runs, and fails the run when no version is read |

## Left out

- The network: the fetch result (`Downloaded`, `Unchanged`, `Failed`) and the archive's contents are inputs of `Recipe.Converge`. The owner, group and mode (`root`, `644`) are not modelled.
- Chef's resource scheduler: notifications are written as branches. `remote_file` notifies only when it changed the cached file. So an unchanged or failed download means no extraction and no install. A cached archive from an earlier run is therefore not installed when the download fails.
- `archive_file` internals: the archive arrives with its leading component already stripped, as a map of relative entries. File modes and zip format errors are not modelled. A missing archive is the `None` input.
- `shell_out`: the banner printed by `aws --version` is the `stdout` input. The binary is not run, and its exit status is ignored, as in the recipe.
- The `:mode => 0755` of `mkdir_p`, file ownership, and every permission error.
- Directory mtimes are not updated when entries are added below a directory or removed from it. A new directory gets the mtime `now`, an input.
- Paths are literal strings. `//`, `.` and `..` are not normalised. Symbolic links are followed only on the last component, for at most 40 hops (Linux's `MAXSYMLINKS`); a longer chain counts as a loop.
- `FileUtils.mv` falling back to copy and delete across devices.
- FileSystem.Host.MvForce, FileSystem.Host.LnSf and FileSystem.Host.PutFile: they do not check that the destination's parent directory exists.
- FileSystem.Host.Remove: Chef raises when deleting a directory with the `file` resource. The model removes that one entry.
- Retention.SortNewestFirst: the order of equal mtimes is not specified, matching Ruby's unstable `sort_by!`. Any newest-first permutation is allowed.
- Retention.Listing: `Dir.glob` order is not modelled. Any listing of the set is allowed.
- Installer.InstallBlock: its guarantee that the install is placed, with success promised, holds only on a fresh install, captured by the predicate `Fresh`, and when `current` is not a real directory:
  - the version is not `current`;
  - nothing exists yet at or below the install directory;
  - every directory `mkdir_p` has to create is missing (not a file or link), so `/opt/awscli/v2` and its parents may be missing, as on a first install;
  - the cache lies outside `/opt/awscli/v2`.

  Reinstalling over an existing version directory is covered by `Installer.InstallBlock`'s frame clause (through `Installer.RepointFrame`: outside the install's paths and `current`, the tree the prune starts from is the tree before the block), by `Installer.LinkTools`' replacement of existing links, and by the prune and `current` guarantees that hold for every successful run.
- Installer.PlaceFiles, Installer.PlaceDist: same `Fresh` condition as above.
- Installer.InstallBlock: it promises the new install survives the prune only when fewer than five other versions are at least as new as `now`. The recipe relies on the new install being the newest by mtime, and the model does not assume a clock that only moves forward.
- Installer.InstallBlock: it reads the version with the corrected `VersionParse.ParseVersion`, so output whose first word is only slashes fails the run here, where the recipe as written installs into `/opt/awscli/v2/` itself (see Findings).
- Recipe.Converge: it runs `Installer.InstallBlock` and so follows the corrected version parse too (see Findings).
- StaleZips.RemoveStaleZips: which of two stale matches goes when one is a link to the other depends on the glob's order, which is not modelled; the contract allows both outcomes.
- Recipe.Extract: only `overwrite` false, the recipe's setting, is modelled. Only the unpack directory itself is created; the cache directory above it, which holds the downloaded archive, is taken to exist.
- Recipe.Converge, Recipe.OnDownload: they state the outcome of the install path only through `Installer.InstallBlock`'s contract. They do not repeat those guarantees.

## Findings

| source | as written | input that shows it | evidently intended | confidence | as-written member | corrected member |
|---|---|---|---|---|---|---|
| cookbooks/awscli/recipes/default.rb:79-81 | `split("/").last` is nil when the first word is made only of slashes, and nil interpolates as "". The install directory becomes `/opt/awscli/v2/` itself, and `current` is pointed at `/opt/awscli/v2/` | `aws --version` printing `/ aws` | fail the run when no version can be read, as it already does for empty output | not executed | VersionParse.SlashTokenPublishesEmptyVersion | VersionParse.ParseVersion |

=== FILE: filesystem.dfy ===
/**
 An abstract host filesystem: a map from literal path strings to entries, and
 the Ruby FileUtils primitives the recipe calls on it, as methods of a `Host`
 that update the map in place.
 */
module FileSystem {
  import opened Paths
  import opened Optional

  /** A directory with its modification time, a regular file, or a symbolic link. */
  datatype Entry = Dir(mtime: int) | File | Link(target: Path)

  type Tree = map<Path, Entry>

  /** Why a step of the run raised. */
  datatype Failure =
    | NotADirectory(path: Path)   // mkdir_p met an existing path that is not a directory
    | LinkBlocked(path: Path)     // ln_sf met a real directory where the link must go
    | NoVersion(output: string)   // `aws --version` printed nothing usable
    | NoArchive(archive: Path)    // the zip to extract is missing or unreadable

  datatype Outcome = Pass | Fail(failure: Failure)

  /**
   Follows symbolic links from `p` for at most `hops` links, as `stat` does.
   A dangling link, or a chain longer than `hops`, resolves to nothing.
   */
  function Resolve(fs: Tree, p: Path, hops: nat): (e: Option<Entry>)
    ensures e.Some? ==> !e.value.Link?
    ensures p in fs && !fs[p].Link? ==> e == Some(fs[p])
    ensures p !in fs ==> e == None
    decreases hops
  {
    if p !in fs then None
    else match fs[p]
      case Link(t) => if hops == 0 then None else Resolve(fs, t, hops - 1)
      case e => Some(e)
  }

  /** How many symbolic links one lookup follows before it gives up with ELOOP (Linux's MAXSYMLINKS). */
  const MaxLinks := 40

  /** Ruby's `File.stat`: the entry `p` resolves to, None for a missing path, a dangling link or a loop. */
  function Stat(fs: Tree, p: Path): Option<Entry> {
    Resolve(fs, p, MaxLinks)
  }

  /** Ruby's `File.directory?`: the path resolves to a directory. */
  predicate IsDir(fs: Tree, p: Path) {
    Stat(fs, p).Some? && Stat(fs, p).value.Dir?
  }

  /** Ruby's `File.mtime` of a directory, through links. */
  function Mtime(fs: Tree, p: Path): int
    requires IsDir(fs, p)
  {
    Stat(fs, p).value.mtime
  }

  /** A path that is not a directory after directories were only added was there before. */
  lemma CreatedAreDirs(before: Tree, after: Tree, p: Path, now: int)
    requires forall q | q in after && q !in before :: after[q] == Dir(now)
    requires p in after && !IsDir(after, p)
    ensures p in before
  {
  }

  /** Every entry of `small` is in `big`, unchanged. */
  predicate Submap(small: Tree, big: Tree) {
    forall p | p in small :: p in big && big[p] == small[p]
  }

  lemma {:induction false} ResolveInBigger(small: Tree, big: Tree, p: Path, hops: nat)
    requires Submap(small, big) && Resolve(small, p, hops).Some?
    ensures Resolve(big, p, hops) == Resolve(small, p, hops)
    decreases hops
  {
    if small[p].Link? {
      ResolveInBigger(small, big, small[p].target, hops - 1);
    }
  }

  /** A path that resolves in a smaller tree resolves to the same entry in any tree containing it. */
  lemma StatInBigger(small: Tree, big: Tree, p: Path)
    requires Submap(small, big)
    ensures Stat(small, p).Some? ==> Stat(big, p) == Stat(small, p)
  {
    if Stat(small, p).Some? {
      ResolveInBigger(small, big, p, MaxLinks);
    }
  }

  /** A directory of a smaller tree is the same directory, with the same mtime, in any tree containing it. */
  lemma IsDirInBigger(small: Tree, big: Tree, p: Path)
    requires Submap(small, big) && IsDir(small, p)
    ensures IsDir(big, p) && Mtime(big, p) == Mtime(small, p)
  {
    StatInBigger(small, big, p);
  }

  /** Writing a non-link entry `e` at `q` leaves every lookup as it was, or makes it end at `e`. */
  lemma {:induction false} ResolveAfterPut(fs: Tree, q: Path, e: Entry, p: Path, hops: nat)
    requires !e.Link?
    ensures Resolve(fs[q := e], p, hops) == Resolve(fs, p, hops) || Resolve(fs[q := e], p, hops) == Some(e)
    decreases hops
  {
    if p != q && p in fs && fs[p].Link? && hops > 0 {
      ResolveAfterPut(fs, q, e, fs[p].target, hops - 1);
    }
  }

  /** The paths `rm_rf p` removes: a link or file alone, a directory with everything below it. */
  function RmRfKeys(fs: Tree, p: Path): (ks: set<Path>)
    ensures ks <= fs.Keys
    ensures p in fs <==> p in ks
    ensures forall k | k in ks :: Within(p, k)
  {
    if p !in fs then {}
    else if fs[p].Dir? then set k | k in fs && Within(p, k)
    else {p}
  }

  /**
   The directories `mkdir_p p` creates, deepest first: `p` and its ancestors up
   to (not including) the first one that already is a directory, or the root.
   */
  function MkdirStack(fs: Tree, p: Path): (stack: seq<Path>)
    requires |p| > 0 && p[0] == '/'
    ensures forall q | q in stack :: !IsDir(fs, q) && Within(q, p)
    ensures !IsDir(fs, p) && p != "/" ==> |stack| > 0 && stack[0] == p
    decreases |p|
  {
    DirnameOfAbsolute(p);
    if IsDir(fs, p) || Dirname(p) == p then []
    else
      var rest := MkdirStack(fs, Dirname(p));
      assert forall q | q in rest :: Within(q, p) by {
        forall q | q in rest ensures Within(q, p) { WithinTrans(q, Dirname(p), p); }
      }
      [p] + rest
  }

  lemma WithinTrans(a: Path, b: Path, c: Path)
    requires Within(a, b) && (Within(b, c) || b + "/" <= c)
    ensures Within(a, c)
  {
    if a != b && b != c {
      assert a + "/" <= b <= c;
    }
  }

  /** Where `ln_sf target, link` puts the link: inside `link` when that is a directory. */
  function LinkDest(fs: Tree, target: Path, link: Path): Path {
    if IsDir(fs, link) then Join(link, Basename(target)) else link
  }

  /** Where `mv src, dst` puts `src`: inside `dst` when that is a directory. */
  function MoveDest(fs: Tree, src: Path, dst: Path): Path {
    if IsDir(fs, dst) then Join(dst, Basename(src)) else dst
  }

  /** The paths a rename of `src` carries along: `src` and everything below it. */
  function Moving(fs: Tree, src: Path): set<Path> {
    set k | k in fs && Within(src, k)
  }

  /** The entries below `src`, each carried to the same relative path below `d`. */
  function Rebased(fs: Tree, src: Path, d: Path): (m: Tree)
    ensures forall k | k in m :: Within(d, k)
    ensures forall k | k in fs && Within(src, k) :: d + k[|src|..] in m && m[d + k[|src|..]] == fs[k]
  {
    var moving := Moving(fs, src);
    forall k1, k2 | k1 in moving && k2 in moving && d + k1[|src|..] == d + k2[|src|..]
      ensures k1 == k2
    {
      RebaseInjective(src, d, k1, k2);
    }
    var moved := map k | k in moving :: d + k[|src|..] := fs[k];
    assert forall k | k in moved :: Within(d, k) by {
      forall k | k in moved ensures Within(d, k) {
        var k0 :| k0 in moving && k == d + k0[|src|..];
        RebasedWithin(src, d, k0);
      }
    }
    forall k | k in moving ensures d + k[|src|..] in moved && moved[d + k[|src|..]] == fs[k] {
      var key := d + k[|src|..];
      assert key in moved;
    }
    moved
  }

  /** `fs` after renaming `src` (with everything below it) to `d`, replacing what was at `d`. */
  function Renamed(fs: Tree, src: Path, d: Path): (r: Tree)
    ensures forall k | k in fs && !Within(src, k) && !Within(d, k) :: k in r && r[k] == fs[k]
    ensures forall k | k in r && (k !in fs || Within(src, k)) :: Within(d, k)
    ensures src in fs ==> d in r && r[d] == fs[src]
    ensures forall k | k in fs && Within(src, k) :: d + k[|src|..] in r && r[d + k[|src|..]] == fs[k]
  {
    var moved := Rebased(fs, src, d);
    assert src in fs ==> d + src[|src|..] == d;
    (fs - Moving(fs, src) - {d}) + moved
  }

  lemma RebaseInjective(src: Path, d: Path, k1: Path, k2: Path)
    requires Within(src, k1) && Within(src, k2) && d + k1[|src|..] == d + k2[|src|..]
    ensures k1 == k2
  {
    assert k1[|src|..] == (d + k1[|src|..])[|d|..];
    assert k2[|src|..] == (d + k2[|src|..])[|d|..];
    assert k1 == k1[..|src|] + k1[|src|..];
    assert k2 == k2[..|src|] + k2[|src|..];
  }

  lemma RebasedWithin(src: Path, d: Path, k: Path)
    requires Within(src, k)
    ensures Within(d, d + k[|src|..])
  {
    if k != src {
      assert k[|src|..] == "/" + k[|src| + 1..];
    }
  }

  /** The machine the recipe runs on; `fs` is its whole filesystem. */
  class Host {
    var fs: Tree

    constructor (initial: Tree)
      ensures fs == initial
    {
      fs := initial;
    }

    /**
     Chef's `file` resource with `action :delete`: removes the entry at `p` when
     `File.exist?` holds of it, so a dangling link is left where it is.
     */
    method Remove(p: Path)
      modifies this
      ensures fs == if Stat(old(fs), p).None? then old(fs) else old(fs) - {p}
    {
      if Stat(fs, p).Some? {
        fs := fs - {p};
      }
    }

    /** Writes a regular file at `p`, replacing what was there (a download that changed the cached file). */
    method PutFile(p: Path)
      modifies this
      ensures fs == old(fs)[p := File]
    {
      fs := fs[p := File];
    }

    /** `FileUtils.rm_f`: unlinks a file or link; a directory or a missing path is left as it is. */
    method RmF(p: Path)
      modifies this
      ensures fs == if p in old(fs) && !old(fs)[p].Dir? then old(fs) - {p} else old(fs)
    {
      if p in fs && !fs[p].Dir? {
        fs := fs - {p};
      }
    }

    /** `FileUtils.rm_rf`: removes a link or file, or a directory and everything below it. */
    method RmRf(p: Path)
      modifies this
      ensures fs == old(fs) - RmRfKeys(old(fs), p)
    {
      fs := fs - RmRfKeys(fs, p);
    }

    /**
     `FileUtils.ln_sf target, link`: replaces whatever non-directory is at the
     destination with a link to `target`; a real directory there makes it raise.
     */
    method LnSf(target: Path, link: Path) returns (r: Outcome)
      modifies this
      ensures var d := LinkDest(old(fs), target, link);
        if d in old(fs) && old(fs)[d].Dir? then r == Fail(LinkBlocked(d)) && fs == old(fs)
        else r == Pass && fs == old(fs)[d := Link(target)]
    {
      var d := LinkDest(fs, target, link);
      if d in fs && fs[d].Dir? {
        return Fail(LinkBlocked(d));
      }
      fs := fs[d := Link(target)];
      return Pass;
    }

    /**
     `FileUtils.mv src, dst, force: true`: renames `src` to its destination; every
     case where the rename raises (missing source, a directory already there, a
     directory over a non-directory, a move into itself) is swallowed and changes nothing.
     */
    method MvForce(src: Path, dst: Path)
      modifies this
      ensures var d := MoveDest(old(fs), src, dst);
        fs == if src !in old(fs) || Within(src, d) || IsDir(old(fs), d) || (d in old(fs) && old(fs)[src].Dir?)
              then old(fs) else Renamed(old(fs), src, d)
    {
      var d := MoveDest(fs, src, dst);
      if src !in fs || Within(src, d) || IsDir(fs, d) || (d in fs && fs[src].Dir?) {
        return;
      }
      fs := Renamed(fs, src, d);
    }

    /**
     Creates the directories of `stack`, last one first, each with mtime `now`;
     one that exists as something other than a directory makes it stop with a failure.
     */
    method CreateDirs(stack: seq<Path>, now: int) returns (r: Outcome)
      modifies this
      ensures Submap(old(fs), fs)
      ensures forall q | q in fs && q !in old(fs) :: q in stack && fs[q] == Dir(now)
      ensures r.Pass? ==> forall q | q in stack :: q in fs
      ensures r.Fail? ==> r.failure.NotADirectory? && r.failure.path in stack && r.failure.path in old(fs)
    {
      var i := |stack|;
      while i > 0
        invariant 0 <= i <= |stack|
        invariant Submap(old(fs), fs)
        invariant forall q | q in fs && q !in old(fs) :: q in stack && fs[q] == Dir(now)
        invariant forall j | i <= j < |stack| :: stack[j] in fs
      {
        i := i - 1;
        var q := stack[i];
        if q in fs {
          if !IsDir(fs, q) {
            CreatedAreDirs(old(fs), fs, q, now);
            return Fail(NotADirectory(q));
          }
        } else {
          fs := fs[q := Dir(now)];
        }
      }
      return Pass;
    }

    /**
     `FileUtils.mkdir_p path`: creates the missing directories of `MkdirStack`,
     shallowest first, each with mtime `now`; one that exists as something other
     than a directory makes it raise, keeping what it created so far.
     */
    method MkdirP(path: Path, now: int) returns (r: Outcome)
      requires |path| > 0 && path[0] == '/'
      modifies this
      ensures var stack := MkdirStack(old(fs), ChompSlash(path));
        && Submap(old(fs), fs)
        && (forall q | q in fs && q !in old(fs) :: q in stack && fs[q] == Dir(now))
        && (r.Pass? ==> forall q | q in stack :: q in fs)
        && ((forall q | q in stack :: q !in old(fs)) ==> r.Pass?)
        && (r.Fail? ==> r.failure.NotADirectory? && r.failure.path in stack && r.failure.path in old(fs))
    {
      r := CreateDirs(MkdirStack(fs, ChompSlash(path)), now);
    }
  }
}

=== FILE: installer.dfy ===
/**
 The `install-awscli` block: reads the version off the unpacked binary's banner,
 moves the unpacked `dist` tree into `/opt/awscli/v2/<version>`, links the two
 executables into its `bin`, repoints `/opt/awscli/v2/current` at it and prunes
 old versions.
 */
module Installer {
  import opened Paths
  import opened Optional
  import opened FileSystem
  import opened VersionParse
  import opened Retention
  import opened StaleZips

  /** `/opt/awscli/v2/<v>`: for a version without a slash, a direct child of `/opt/awscli/v2` named `v`. */
  function InstallDir(v: string): (dir: Path)
    ensures NoSlash(v) ==> Dirname(dir) == V2 && Basename(dir) == v
  {
    assert NoSlash(v) ==> Dirname(Join(V2, v)) == V2 && Basename(Join(V2, v)) == v by {
      if NoSlash(v) {
        JoinParts(V2, v);
      }
    }
    Join(V2, v)
  }

  function BinDir(v: string): Path {
    Join(InstallDir(v), "bin")
  }

  function DistDir(v: string): Path {
    Join(InstallDir(v), "dist")
  }

  /** The link `bin/<tool>` of an install. */
  function BinLink(v: string, tool: string): Path {
    Join(BinDir(v), tool)
  }

  /** The file `dist/<tool>` of an install, which the link points at. */
  function DistFile(v: string, tool: string): Path {
    Join(DistDir(v), tool)
  }

  /** The unpacked tree the install moves into place. */
  function DistSource(cacheDir: Path): Path {
    Join(UnpackDir(cacheDir), "dist")
  }

  /** The paths placing an install may change: the unpacked tree, the install directory and the directories above its `bin`. */
  predicate Touched(cacheDir: Path, v: string, k: Path) {
    Within(DistSource(cacheDir), k) || Within(InstallDir(v), k) || Within(k, BinDir(v))
  }

  /** `a` and `b` agree on every path outside what placing the install may change. */
  ghost predicate SameOutside(a: Tree, b: Tree, cacheDir: Path, v: string) {
    forall k | !Touched(cacheDir, v, k) :: (k in a <==> k in b) && (k in a ==> a[k] == b[k])
  }

  /**
   `after` agrees with `before` on every path outside what placing the install may
   change and outside `current`: the tree a successful repoint leaves behind.
   */
  ghost predicate PublishedFrame(before: Tree, after: Tree, cacheDir: Path, v: string) {
    forall k | !Within(Current, k) && !Touched(cacheDir, v, k) ::
      (k in before <==> k in after) && (k in after ==> after[k] == before[k])
  }

  predicate Apart(a: Path, b: Path) {
    !Within(a, b) && !Within(b, a)
  }

  /**
   The situation the block's happy path meets: a proper version name that is not
   `current`, nothing yet at or below the install directory, nothing but missing
   paths among the directories `mkdir_p` has to create (so `/opt/awscli/v2` and
   its parents may be missing, as on a first install), and the cache outside
   `/opt/awscli/v2`.
   */
  predicate Fresh(fs: Tree, cacheDir: Path, v: string) {
    && v != "" && NoSlash(v) && v != "current"
    && Apart(DistSource(cacheDir), V2)
    && (forall k | k in fs :: !Within(InstallDir(v), k))
    && (forall q | q in MkdirStack(fs, BinDir(v)) :: q !in fs)
  }

  /** Every entry at or below the unpacked `dist` of `before` sits at the same relative path below the install's `dist` in `after`. */
  predicate DistMoved(before: Tree, after: Tree, cacheDir: Path, v: string) {
    var src := DistSource(cacheDir);
    forall k | k in before && Within(src, k) :: DistDir(v) + k[|src|..] in after && after[DistDir(v) + k[|src|..]] == before[k]
  }

  /**
   The install is in place in `after`: its directory, created at `now`, the two
   `bin` links to their `dist` files, and the unpacked tree of `before` moved below `dist`.
   */
  predicate Installed(before: Tree, after: Tree, cacheDir: Path, v: string, now: int) {
    && InstallDir(v) in after && after[InstallDir(v)] == Dir(now)
    && BinLink(v, "aws") in after && after[BinLink(v, "aws")] == Link(DistFile(v, "aws"))
    && BinLink(v, "aws_completer") in after && after[BinLink(v, "aws_completer")] == Link(DistFile(v, "aws_completer"))
    && (DistSource(cacheDir) in before ==> DistMoved(before, after, cacheDir, v))
  }

  /**
   The tree the prune starts from: the install in place, `current` linked to it,
   and every other path outside the install as it was in `before`.
   */
  ghost predicate Published(before: Tree, published: Tree, cacheDir: Path, v: string, now: int) {
    && Installed(before, published, cacheDir, v, now)
    && Current in published && published[Current] == Link(InstallDir(v))
    && forall k | k != Current && !Touched(cacheDir, v, k) ::
         (k in before <==> k in published) && (k in published ==> published[k] == before[k])
  }

  /**
   Lines 83-84: `mkdir_p` of `bin` (a raise ends the block), then `mv` of the
   unpacked `dist` into the install directory, its errors swallowed.
   */
  method PlaceDist(h: Host, cacheDir: Path, v: string, now: int) returns (r: Outcome)
    modifies h
    ensures SameOutside(old(h.fs), h.fs, cacheDir, v)
    ensures Fresh(old(h.fs), cacheDir, v) ==>
      && r == Pass
      && BinLink(v, "aws") !in h.fs && BinLink(v, "aws_completer") !in h.fs
      && InstallDir(v) in h.fs && h.fs[InstallDir(v)] == Dir(now)
      && (DistSource(cacheDir) in old(h.fs) ==> DistMoved(old(h.fs), h.fs, cacheDir, v))
  {
    var src := DistSource(cacheDir);
    ghost var fs0 := h.fs;
    ghost var isFresh := Fresh(fs0, cacheDir, v);
    assert ChompSlash(BinDir(v) + "/") == BinDir(v);
    r := h.MkdirP(BinDir(v) + "/", now);
    MkdirFrame(fs0, h.fs, cacheDir, v, MkdirStack(fs0, BinDir(v)));
    if r.Fail? {
      return;
    }
    ghost var fs1 := h.fs;
    if isFresh {
      FreshMkdirInstall(fs0, fs1, cacheDir, v, now);
      FreshMkdirLeavesFree(fs0, fs1, cacheDir, v);
      FreshMkdirSource(fs0, fs1, cacheDir, v);
    }
    MoveDestInside(fs1, src, v);
    h.MvForce(src, DistDir(v));
    MoveFrame(fs1, h.fs, cacheDir, v);
    SameOutsideTrans(fs0, fs1, h.fs, cacheDir, v);
    if isFresh {
      FreshAfterMove(fs0, fs1, h.fs, cacheDir, v, now);
    }
  }

  /** One `ln_sf` of `dist/<tool>` to `bin/<tool>`. */
  method LinkTool(h: Host, cacheDir: Path, v: string, tool: string) returns (r: Outcome)
    modifies h
    ensures SameOutside(old(h.fs), h.fs, cacheDir, v)
    ensures var d := LinkDest(old(h.fs), DistFile(v, tool), BinLink(v, tool));
      if d in old(h.fs) && old(h.fs)[d].Dir? then r == Fail(LinkBlocked(d)) && h.fs == old(h.fs)
      else r == Pass && h.fs == old(h.fs)[d := Link(DistFile(v, tool))]
    ensures !IsDir(old(h.fs), BinLink(v, tool)) ==> r == Pass && h.fs == old(h.fs)[BinLink(v, tool) := Link(DistFile(v, tool))]
  {
    LinkDestInside(h.fs, DistFile(v, tool), v, tool);
    r := h.LnSf(DistFile(v, tool), BinLink(v, tool));
  }

  /** Lines 85-86: `ln_sf` of `dist/aws` and `dist/aws_completer` into `bin`; a raise ends the block. */
  method LinkTools(h: Host, cacheDir: Path, v: string) returns (r: Outcome)
    modifies h
    ensures SameOutside(old(h.fs), h.fs, cacheDir, v)
    ensures r.Fail? ==> r.failure.LinkBlocked?
    ensures var linked := old(h.fs)[BinLink(v, "aws") := Link(DistFile(v, "aws"))];
      !IsDir(old(h.fs), BinLink(v, "aws")) && !IsDir(linked, BinLink(v, "aws_completer")) ==>
        r == Pass && h.fs == linked[BinLink(v, "aws_completer") := Link(DistFile(v, "aws_completer"))]
  {
    r := LinkTool(h, cacheDir, v, "aws");
    if r.Fail? {
      return;
    }
    ghost var fs1 := h.fs;
    BinLinksApart(v);
    r := LinkTool(h, cacheDir, v, "aws_completer");
    SameOutsideTrans(old(h.fs), fs1, h.fs, cacheDir, v);
  }

  /** Lines 83-86: the install directory is filled and the tools linked from `bin`. */
  method PlaceFiles(h: Host, cacheDir: Path, v: string, now: int) returns (r: Outcome)
    modifies h
    ensures SameOutside(old(h.fs), h.fs, cacheDir, v)
    ensures Fresh(old(h.fs), cacheDir, v) ==> r == Pass && Installed(old(h.fs), h.fs, cacheDir, v, now)
  {
    ghost var fs0 := h.fs;
    r := PlaceDist(h, cacheDir, v, now);
    if r.Fail? {
      return;
    }
    ghost var fs1 := h.fs;
    r := LinkTools(h, cacheDir, v);
    SameOutsideTrans(fs0, fs1, h.fs, cacheDir, v);
    BinLinksApart(v);
    if Fresh(fs0, cacheDir, v) && DistSource(cacheDir) in fs0 {
      BinLinkNotMoved(cacheDir, v, "aws");
      BinLinkNotMoved(cacheDir, v, "aws_completer");
      var aws := BinLink(v, "aws");
      DistMovedAfterPut(fs0, fs1, aws, Link(DistFile(v, "aws")), cacheDir, v);
      DistMovedAfterPut(fs0, fs1[aws := Link(DistFile(v, "aws"))], BinLink(v, "aws_completer"),
                        Link(DistFile(v, "aws_completer")), cacheDir, v);
    }
  }

  /** Writing at a path outside the install's `dist` keeps the moved tree. */
  lemma DistMovedAfterPut(before: Tree, after: Tree, p: Path, e: Entry, cacheDir: Path, v: string)
    requires DistMoved(before, after, cacheDir, v) && !Within(DistDir(v), p)
    ensures DistMoved(before, after[p := e], cacheDir, v)
  {
    var src := DistSource(cacheDir);
    forall k | k in before && Within(src, k) ensures DistDir(v) + k[|src|..] != p {
      RebasedWithin(src, DistDir(v), k);
    }
  }

  lemma SameOutsideTrans(a: Tree, b: Tree, c: Tree, cacheDir: Path, v: string)
    requires SameOutside(a, b, cacheDir, v) && SameOutside(b, c, cacheDir, v)
    ensures SameOutside(a, c, cacheDir, v)
  {
  }

  /** The two links and the moved tree are three different paths. */
  lemma BinLinksApart(v: string)
    ensures BinLink(v, "aws") != BinLink(v, "aws_completer")
    ensures DistDir(v) != BinLink(v, "aws") && DistDir(v) != BinLink(v, "aws_completer")
  {
  }

  /** The keys `MkdirP` adds to `fs0` are directories above `bin`. */
  lemma MkdirFrame(fs0: Tree, fs1: Tree, cacheDir: Path, v: string, stack: seq<Path>)
    requires stack == MkdirStack(fs0, BinDir(v))
    requires Submap(fs0, fs1) && forall q | q in fs1 && q !in fs0 :: q in stack
    ensures SameOutside(fs0, fs1, cacheDir, v)
  {
  }

  /** Where `mv` puts the unpacked tree lies in the install directory. */
  lemma MoveDestInside(fs: Tree, src: Path, v: string)
    ensures Within(InstallDir(v), MoveDest(fs, src, DistDir(v)))
  {
    WithinJoin(InstallDir(v), InstallDir(v), "dist");
    WithinJoin(InstallDir(v), DistDir(v), Basename(src));
  }

  /** Where `ln_sf` puts a `bin` link lies in the install directory. */
  lemma LinkDestInside(fs: Tree, target: Path, v: string, tool: string)
    ensures Within(InstallDir(v), LinkDest(fs, target, BinLink(v, tool)))
  {
    WithinJoin(InstallDir(v), InstallDir(v), "bin");
    WithinJoin(InstallDir(v), BinDir(v), tool);
    WithinJoin(InstallDir(v), BinLink(v, tool), Basename(target));
  }

  /** Moving the unpacked tree only changes paths below it and below its destination. */
  lemma MoveFrame(fs1: Tree, fs2: Tree, cacheDir: Path, v: string)
    requires Within(InstallDir(v), MoveDest(fs1, DistSource(cacheDir), DistDir(v)))
    requires var src, d := DistSource(cacheDir), MoveDest(fs1, DistSource(cacheDir), DistDir(v));
      fs2 == fs1 || fs2 == Renamed(fs1, src, d)
    ensures SameOutside(fs1, fs2, cacheDir, v)
  {
    var src, d := DistSource(cacheDir), MoveDest(fs1, DistSource(cacheDir), DistDir(v));
    forall k | Within(d, k) ensures Within(InstallDir(v), k) {
      WithinTrans(InstallDir(v), d, k);
    }
  }

  /** On a fresh install `mkdir_p` starts with `bin` and the install directory, neither of which exists. */
  lemma FreshStack(fs: Tree, cacheDir: Path, v: string)
    requires Fresh(fs, cacheDir, v)
    ensures var stack := MkdirStack(fs, BinDir(v)); |stack| >= 2 && stack[0] == BinDir(v) && stack[1] == InstallDir(v)
    ensures BinDir(v) !in fs && InstallDir(v) !in fs
  {
    var dir := InstallDir(v);
    WithinJoin(dir, dir, "bin");
    JoinParts(dir, "bin");
    JoinParts(V2, v);
    assert dir !in fs && BinDir(v) !in fs;
    assert MkdirStack(fs, BinDir(v)) == [BinDir(v)] + MkdirStack(fs, dir);
  }

  /** A successful `mkdir_p` on a fresh install creates the install directory at `now`. */
  lemma FreshMkdirInstall(fs0: Tree, fs1: Tree, cacheDir: Path, v: string, now: int)
    requires Fresh(fs0, cacheDir, v)
    requires forall q | q in fs1 && q !in fs0 :: q in MkdirStack(fs0, BinDir(v)) && fs1[q] == Dir(now)
    requires forall q | q in MkdirStack(fs0, BinDir(v)) :: q in fs1
    ensures InstallDir(v) in fs1 && fs1[InstallDir(v)] == Dir(now)
  {
    FreshStack(fs0, cacheDir, v);
    assert InstallDir(v) in MkdirStack(fs0, BinDir(v));
  }

  /** `mkdir_p` on a fresh install creates neither `dist` nor the `bin` links, which were missing before. */
  lemma FreshMkdirLeavesFree(fs0: Tree, fs1: Tree, cacheDir: Path, v: string)
    requires Fresh(fs0, cacheDir, v)
    requires forall q | q in fs1 && q !in fs0 :: q in MkdirStack(fs0, BinDir(v))
    ensures DistDir(v) !in fs1 && BinLink(v, "aws") !in fs1 && BinLink(v, "aws_completer") !in fs1
  {
    var dir := InstallDir(v);
    WithinJoin(dir, dir, "dist");
    WithinJoin(dir, dir, "bin");
    WithinJoin(dir, BinDir(v), "aws");
    WithinJoin(dir, BinDir(v), "aws_completer");
    assert DistDir(v) !in fs0 && BinLink(v, "aws") !in fs0 && BinLink(v, "aws_completer") !in fs0;
    SiblingsApart(dir, "dist", "bin");
    assert !Within(BinLink(v, "aws"), BinDir(v)) && !Within(BinLink(v, "aws_completer"), BinDir(v));
  }

  /** A successful `mkdir_p` on a fresh install leaves the unpacked tree alone and creates nothing inside it. */
  lemma FreshMkdirSource(fs0: Tree, fs1: Tree, cacheDir: Path, v: string)
    requires Fresh(fs0, cacheDir, v)
    requires Submap(fs0, fs1)
    requires forall q | q in fs1 && q !in fs0 :: q in MkdirStack(fs0, BinDir(v))
    ensures forall k | Within(DistSource(cacheDir), k) :: (k in fs1 <==> k in fs0) && (k in fs0 ==> fs1[k] == fs0[k])
    ensures !Within(DistSource(cacheDir), DistDir(v)) && !Within(DistSource(cacheDir), InstallDir(v))
  {
    var dir, src := InstallDir(v), DistSource(cacheDir);
    WithinJoin(V2, V2, v);
    WithinJoin(V2, dir, "dist");
    WithinJoin(V2, dir, "bin");
    if Within(src, DistDir(v)) {
      AncestorsNested(src, V2, DistDir(v));
    }
    if Within(src, dir) {
      AncestorsNested(src, V2, dir);
    }
    forall k | Within(src, k) && k in fs1 ensures k in fs0 {
      if k !in fs0 {
        WithinTrans(src, k, BinDir(v));
        AncestorsNested(src, V2, BinDir(v));
      }
    }
  }

  /** What holds after the move on a fresh install. */
  lemma FreshAfterMove(fs0: Tree, fs1: Tree, fs2: Tree, cacheDir: Path, v: string, now: int)
    requires Fresh(fs0, cacheDir, v)
    requires DistDir(v) !in fs1 && BinLink(v, "aws") !in fs1 && BinLink(v, "aws_completer") !in fs1
    requires InstallDir(v) in fs1 && fs1[InstallDir(v)] == Dir(now)
    requires forall k | Within(DistSource(cacheDir), k) :: (k in fs1 <==> k in fs0) && (k in fs0 ==> fs1[k] == fs0[k])
    requires !Within(DistSource(cacheDir), DistDir(v)) && !Within(DistSource(cacheDir), InstallDir(v))
    requires var src := DistSource(cacheDir);
      fs2 == if src !in fs1 then fs1 else Renamed(fs1, src, DistDir(v))
    ensures BinLink(v, "aws") !in fs2 && BinLink(v, "aws_completer") !in fs2
    ensures InstallDir(v) in fs2 && fs2[InstallDir(v)] == Dir(now)
    ensures DistSource(cacheDir) in fs0 ==> DistMoved(fs0, fs2, cacheDir, v)
  {
    var dir := InstallDir(v);
    WithinJoin(dir, dir, "bin");
    SiblingsApart(dir, "dist", "bin");
    SiblingsApart(dir, "bin", "dist");
    BinLinkNotMoved(cacheDir, v, "aws");
    BinLinkNotMoved(cacheDir, v, "aws_completer");
  }

  /** A `bin` link is not below `dist`. */
  lemma BinLinkNotMoved(cacheDir: Path, v: string, tool: string)
    ensures !Within(DistDir(v), BinLink(v, tool))
  {
    var dir := InstallDir(v);
    WithinJoin(BinDir(v), BinDir(v), tool);
    if Within(DistDir(v), BinLink(v, tool)) {
      AncestorsNested(DistDir(v), BinDir(v), BinLink(v, tool));
      SiblingsApart(dir, "dist", "bin");
      SiblingsApart(dir, "bin", "dist");
    }
  }

  /** Lines 88-89: `rm_f` of `current`, then `ln_sf` of the install directory to `current`. */
  method Repoint(h: Host, v: string) returns (r: Outcome)
    modifies h
    ensures !(Current in old(h.fs) && old(h.fs)[Current].Dir?) ==>
      r == Pass && h.fs == old(h.fs)[Current := Link(InstallDir(v))]
    ensures Current in old(h.fs) && old(h.fs)[Current].Dir? ==>
      var d := LinkDest(old(h.fs), InstallDir(v), Current);
      if d in old(h.fs) && old(h.fs)[d].Dir? then r == Fail(LinkBlocked(d)) && h.fs == old(h.fs)
      else r == Pass && h.fs == old(h.fs)[d := Link(InstallDir(v))]
  {
    h.RmF(Current);
    r := h.LnSf(InstallDir(v), Current);
  }

  /**
   Placing the install (`fs0` to `fs1`) and then repointing `current` (`fs1` to `fs2`,
   either outcome of `Repoint`) change nothing outside the install's paths and `current`.
   */
  lemma RepointFrame(fs0: Tree, fs1: Tree, fs2: Tree, cacheDir: Path, v: string)
    requires SameOutside(fs0, fs1, cacheDir, v)
    requires !(Current in fs1 && fs1[Current].Dir?) ==> fs2 == fs1[Current := Link(InstallDir(v))]
    requires Current in fs1 && fs1[Current].Dir? ==>
      fs2 == fs1 || fs2 == fs1[LinkDest(fs1, InstallDir(v), Current) := Link(InstallDir(v))]
    ensures PublishedFrame(fs0, fs2, cacheDir, v)
  {
    if IsDir(fs1, Current) {
      WithinJoin(Current, Current, Basename(InstallDir(v)));
    }
  }

  /** The `current` link is none of the paths placing an install may change. */
  lemma CurrentUntouched(cacheDir: Path, v: string)
    requires NoSlash(v) && v != "current" && Apart(DistSource(cacheDir), V2)
    ensures !Touched(cacheDir, v, Current)
  {
    var dir := InstallDir(v);
    assert Current == Join(V2, "current");
    WithinJoin(V2, V2, "current");
    WithinJoin(dir, dir, "bin");
    SiblingsApart(V2, v, "current");
    SiblingsApart(V2, "current", v);
    if Within(DistSource(cacheDir), Current) {
      AncestorsNested(DistSource(cacheDir), V2, Current);
    }
    if Within(Current, BinDir(v)) {
      AncestorsNested(Current, dir, BinDir(v));
    }
  }

  /** A prune that keeps the install directory removes nothing inside it. */
  lemma KeptInstallUntouched(fs: Tree, order: seq<Path>, v: string, k: Path)
    requires NoSlash(v) && Within(InstallDir(v), k)
    requires forall p | p in order :: p in Candidates(fs)
    requires InstallDir(v) !in ToDelete(order)
    ensures k !in Swept(fs, ToDelete(order))
  {
    if k in Swept(fs, ToDelete(order)) {
      PruneRemovesOnlyBelowDeleted(fs, order, k);
      var p :| p in ToDelete(order) && Within(p, k);
      CandidateIsEntry(fs, order, p);
      var name := p[|V2| + 1..];
      assert p == Join(V2, name);
      AncestorsNested(p, InstallDir(v), k);
      SiblingsApart(V2, name, v);
      SiblingsApart(V2, v, name);
    }
  }

  lemma CandidateIsEntry(fs: Tree, order: seq<Path>, p: Path)
    requires forall q | q in order :: q in Candidates(fs)
    requires p in ToDelete(order)
    ensures IsGlobEntry(V2, p) && NoSlash(p[|V2| + 1..])
  {
    assert p in order;
  }

  /** `current` and the install directory are different paths, and neither is below the install's `dist`. */
  lemma CurrentApart(cacheDir: Path, v: string)
    requires NoSlash(v) && v != "current" && Apart(DistSource(cacheDir), V2)
    ensures Current != InstallDir(v) && !Within(DistDir(v), Current)
    ensures Current != BinLink(v, "aws") && Current != BinLink(v, "aws_completer")
  {
    CurrentUntouched(cacheDir, v);
    WithinJoin(InstallDir(v), InstallDir(v), "dist");
    WithinJoin(InstallDir(v), InstallDir(v), "bin");
    WithinJoin(InstallDir(v), BinDir(v), "aws");
    WithinJoin(InstallDir(v), BinDir(v), "aws_completer");
    if Within(DistDir(v), Current) {
      WithinTrans(InstallDir(v), DistDir(v), Current);
    }
  }

  /** Repointing `current` after a fresh placement gives the tree the prune starts from. */
  lemma PublishedAfterRepoint(fs0: Tree, fs1: Tree, fs2: Tree, cacheDir: Path, v: string, now: int)
    requires Fresh(fs0, cacheDir, v)
    requires Installed(fs0, fs1, cacheDir, v, now) && SameOutside(fs0, fs1, cacheDir, v)
    requires fs2 == fs1[Current := Link(InstallDir(v))]
    ensures Published(fs0, fs2, cacheDir, v, now)
  {
    CurrentApart(cacheDir, v);
    if DistSource(cacheDir) in fs0 {
      DistMovedAfterPut(fs0, fs1, Current, Link(InstallDir(v)), cacheDir, v);
    }
  }

  /** The new install, created at `now`, survives the prune when fewer than five other versions are at least as new. */
  lemma NewInstallKept(published: Tree, order: seq<Path>, v: string, now: int)
    requires InstallDir(v) in published && published[InstallDir(v)] == Dir(now)
    requires PrunedTo(published, order, published - Swept(published, ToDelete(order)))
    requires |AtLeastAsNew(published, InstallDir(v), now)| < Keep
    ensures InstallDir(v) !in ToDelete(order)
  {
    var dir := InstallDir(v);
    if dir in Candidates(published) {
      assert Mtime(published, dir) == now;
      KeptWhenFewNewer(published, order, dir);
    } else {
      assert forall p | p in ToDelete(order) :: p in order;
    }
  }

  /** A prune that keeps the new install leaves all of it in place. */
  lemma InstallSurvivesPrune(fs0: Tree, published: Tree, order: seq<Path>, cacheDir: Path, v: string, now: int)
    requires NoSlash(v)
    requires Installed(fs0, published, cacheDir, v, now)
    requires forall p | p in order :: p in Candidates(published)
    requires InstallDir(v) !in ToDelete(order)
    ensures Installed(fs0, published - Swept(published, ToDelete(order)), cacheDir, v, now)
  {
    var dir, src := InstallDir(v), DistSource(cacheDir);
    WithinJoin(dir, dir, "bin");
    WithinJoin(dir, dir, "dist");
    WithinJoin(dir, BinDir(v), "aws");
    WithinJoin(dir, BinDir(v), "aws_completer");
    KeptInstallUntouched(published, order, v, dir);
    KeptInstallUntouched(published, order, v, BinLink(v, "aws"));
    KeptInstallUntouched(published, order, v, BinLink(v, "aws_completer"));
    if src in fs0 {
      forall k | k in fs0 && Within(src, k) ensures DistDir(v) + k[|src|..] !in Swept(published, ToDelete(order)) {
        RebasedWithin(src, DistDir(v), k);
        WithinTrans(dir, DistDir(v), DistDir(v) + k[|src|..]);
        KeptInstallUntouched(published, order, v, DistDir(v) + k[|src|..]);
      }
    }
  }

  /**
   The `install-awscli` block (lines 78-98) on the banner `stdout` printed by the
   unpacked binary. Output from which the corrected parse reads no version fails
   the run before anything changes. Otherwise the install is placed, `current`
   repointed and old versions pruned; `published` is the tree the prune starts from.
   */
  method InstallBlock(h: Host, cacheDir: Path, stdout: string, now: int) returns (r: Outcome, order: seq<Path>, ghost published: Tree)
    modifies h
    ensures ParseVersion(stdout).None? ==> r == Fail(NoVersion(stdout)) && h.fs == old(h.fs)
    ensures r.Pass? ==> ParseVersion(stdout).Some?
    ensures ParseVersion(stdout).Some? ==> PublishedFrame(old(h.fs), published, cacheDir, ParseVersion(stdout).value)
    ensures r.Pass? ==> PrunedTo(published, order, h.fs) && |Candidates(h.fs)| <= Keep
    ensures r.Pass? && ParseVersion(stdout).Some? && ParseVersion(stdout).value != "current"
            && Apart(DistSource(cacheDir), V2) && !(Current in old(h.fs) && old(h.fs)[Current].Dir?) ==>
      Current in h.fs && h.fs[Current] == Link(InstallDir(ParseVersion(stdout).value))
    ensures ParseVersion(stdout).Some? && Fresh(old(h.fs), cacheDir, ParseVersion(stdout).value)
            && !(Current in old(h.fs) && old(h.fs)[Current].Dir?) ==>
      var v := ParseVersion(stdout).value;
      && r == Pass
      && Published(old(h.fs), published, cacheDir, v, now)
      && PrunedTo(published, order, h.fs)
      && Current in h.fs && h.fs[Current] == Link(InstallDir(v))
      && |Candidates(h.fs)| <= Keep
      && (|AtLeastAsNew(published, InstallDir(v), now)| < Keep ==> InstallDir(v) !in ToDelete(order))
      && (InstallDir(v) !in ToDelete(order) ==> Installed(old(h.fs), h.fs, cacheDir, v, now))
  {
    order := [];
    published := h.fs;
    var parsed := ParseVersion(stdout);
    if parsed.None? {
      return Fail(NoVersion(stdout)), order, published;
    }
    var v := parsed.value;
    ghost var fs0 := h.fs;
    ghost var happy := Fresh(fs0, cacheDir, v) && !(Current in fs0 && fs0[Current].Dir?);
    r := PlaceFiles(h, cacheDir, v, now);
    if r.Fail? {
      return;
    }
    ghost var fs1 := h.fs;
    ghost var linksCurrent := v != "current" && Apart(DistSource(cacheDir), V2) && !(Current in fs0 && fs0[Current].Dir?);
    if linksCurrent {
      CurrentUntouched(cacheDir, v);
    }
    r := Repoint(h, v);
    if r.Fail? {
      return;
    }
    published := h.fs;
    RepointFrame(fs0, fs1, published, cacheDir, v);
    order := Prune(h);
    PruneBound(published, order);
    if linksCurrent {
      PruneKeepsCurrent(published, order);
    }
    if happy {
      PublishedAfterRepoint(fs0, fs1, published, cacheDir, v, now);
      if |AtLeastAsNew(published, InstallDir(v), now)| < Keep {
        NewInstallKept(published, order, v, now);
      }
      if InstallDir(v) !in ToDelete(order) {
        InstallSurvivesPrune(fs0, published, order, cacheDir, v, now);
      }
    }
  }

}

=== FILE: naming.dfy ===
/**
 Artifact naming: the architecture string, the version suffix, the cached zip
 name and the download URL the recipe derives from the `arm?` flag and the
 configured `node[:awscli][:version]`.
 */
module Naming {
  import opened Paths
  import opened Optional

  /** The configured version that asks for the newest release. */
  const Latest := "latest"
  const ZipStem := "awscliv2"
  const ZipExt := ".zip"
  const UrlStem := "https://awscli.amazonaws.com/awscli-exe-linux-"
  const ArmArch := "aarch64"
  const IntelArch := "x86_64"

  /** The two architecture names cannot be mistaken for each other at the head of a string. */
  function Arch(arm: bool): (a: string)
    ensures (ArmArch <= a) == arm && (IntelArch <= a) == !arm
  {
    assert ArmArch[0] != IntelArch[0];
    if arm then ArmArch else IntelArch
  }

  /** Empty for the latest release, otherwise a dash and the pinned version. */
  function VersionSuffix(version: string): (s: string)
    ensures s == "" <==> version == Latest
    ensures version != Latest ==> s[0] == '-' && s[1..] == version
  {
    if version == Latest then "" else "-" + version
  }

  /**
   The name of the cached archive under the cache directory. A version without a
   slash names a zip the clean-up glob matches, so the target is among the matches.
   */
  function ZipName(version: string): (name: string)
    ensures NoSlash(version) ==> IsZipGlobName(name)
  {
    var name := ZipStem + VersionSuffix(version) + ZipExt;
    assert name[|name| - |ZipExt|..] == ZipExt;
    assert NoSlash(version) ==> NoSlash(name) by {
      if NoSlash(version) {
        forall i | 0 <= i < |name| ensures name[i] != '/' {
          if |ZipStem| + 1 <= i < |name| - |ZipExt| && version != Latest {
            assert name[i] == version[i - |ZipStem| - 1];
          }
        }
      }
    }
    name
  }

  /** Where the archive is downloaded from; the URL reads back as the release it was built from. */
  function DownloadUrl(arm: bool, version: string): (url: string)
    ensures ReleaseOfUrl(url) == Some((arm, version))
  {
    var t := VersionSuffix(version) + ZipExt;
    ReleaseOfUrlParts(arm, t);
    TailRoundTrip(version, t);
    assert UrlStem + Arch(arm) + VersionSuffix(version) + ZipExt == UrlStem + Arch(arm) + t;
    UrlStem + Arch(arm) + VersionSuffix(version) + ZipExt
  }

  /** The configured version a suffix stands for; None for text no version produces. */
  function VersionOfSuffix(s: string): Option<string> {
    if s == "" then Some(Latest)
    else if s[0] == '-' && s[1..] != Latest then Some(s[1..])
    else None
  }

  /** The configured version a `<suffix>.zip` tail stands for. */
  function VersionOfTail(t: string): Option<string> {
    if |t| >= |ZipExt| && t[|t| - |ZipExt|..] == ZipExt then VersionOfSuffix(t[..|t| - |ZipExt|]) else None
  }

  /** The configured version a cached zip name stands for. */
  function VersionOfZipName(name: string): Option<string> {
    if ZipStem <= name then VersionOfTail(name[|ZipStem|..]) else None
  }

  /** The `arm?` flag an architecture string at the head of `rest` stands for. */
  function ArchAt(rest: string): (arm: Option<bool>)
    ensures arm.Some? ==> Arch(arm.value) <= rest
  {
    if ArmArch <= rest then Some(true)
    else if IntelArch <= rest then Some(false)
    else None
  }

  /** The `arm?` flag and configured version a download URL stands for. */
  function ReleaseOfUrl(url: string): Option<(bool, string)> {
    if !(UrlStem <= url) then None
    else
      var rest := url[|UrlStem|..];
      match ArchAt(rest)
      case None => None
      case Some(arm) =>
        match VersionOfTail(rest[|Arch(arm)|..])
        case Some(v) => Some((arm, v))
        case None => None
  }

  /** What the glob `awscliv2*.zip` matches as a name inside the cache directory. */
  predicate IsZipGlobName(name: string) {
    && |name| >= |ZipStem| + |ZipExt|
    && ZipStem <= name
    && name[|name| - |ZipExt|..] == ZipExt
    && NoSlash(name)
  }

  /** Distinct configured versions never share a suffix: VersionOfSuffix inverts VersionSuffix. */
  lemma SuffixRoundTrip(version: string, s: string)
    ensures VersionOfSuffix(s) == Some(version) <==> VersionSuffix(version) == s
  {
    if VersionSuffix(version) == s && version != Latest {
      assert s[1..] == version;
    }
    if VersionOfSuffix(s) == Some(version) && s != "" {
      assert s == "-" + s[1..];
    }
  }

  lemma TailRoundTrip(version: string, t: string)
    ensures VersionOfTail(t) == Some(version) <==> VersionSuffix(version) + ZipExt == t
  {
    var s := VersionSuffix(version);
    if s + ZipExt == t {
      assert t[|t| - |ZipExt|..] == ZipExt && t[..|t| - |ZipExt|] == s;
      SuffixRoundTrip(version, s);
    }
    if VersionOfTail(t) == Some(version) {
      SuffixRoundTrip(version, t[..|t| - |ZipExt|]);
      assert t == t[..|t| - |ZipExt|] + t[|t| - |ZipExt|..];
    }
  }

  /** The cached zip name determines the configured version, and only its own name maps back to it. */
  lemma ZipNameRoundTrip(version: string, name: string)
    ensures VersionOfZipName(name) == Some(version) <==> ZipName(version) == name
  {
    var t := VersionSuffix(version) + ZipExt;
    if ZipName(version) == name {
      assert name == ZipStem + t && name[|ZipStem|..] == t;
      TailRoundTrip(version, t);
    }
    if VersionOfZipName(name) == Some(version) {
      TailRoundTrip(version, name[|ZipStem|..]);
      assert name == ZipStem + name[|ZipStem|..];
    }
  }

  lemma SplitAfter(stem: string, rest: string)
    ensures stem <= stem + rest && (stem + rest)[|stem|..] == rest
  {
  }

  /** Reading a URL back splits it at the architecture. */
  lemma ReleaseOfUrlParts(arm: bool, t: string)
    ensures ReleaseOfUrl(UrlStem + Arch(arm) + t) ==
      match VersionOfTail(t)
      case Some(v) => Some((arm, v))
      case None => None
  {
    var a := Arch(arm);
    assert UrlStem + a + t == UrlStem + (a + t);
    SplitAfter(UrlStem, a + t);
    SplitAfter(a, t);
    if !arm {
      assert (a + t)[0] == 'x';
    }
  }

  lemma PrefixSplit(stem: string, s: string)
    requires stem <= s
    ensures s == stem + s[|stem|..]
  {
  }

  /** A URL that reads back as a release is that release's download URL. */
  lemma UrlOfRelease(url: string, arm: bool, version: string)
    requires ReleaseOfUrl(url) == Some((arm, version))
    ensures DownloadUrl(arm, version) == url
  {
    PrefixSplit(UrlStem, url);
    var rest := url[|UrlStem|..];
    var a := Arch(arm);
    assert a <= rest;
    PrefixSplit(a, rest);
    var t := rest[|a|..];
    assert url == UrlStem + a + t;
    ReleaseOfUrlParts(arm, t);
    TailRoundTrip(version, t);
    assert VersionSuffix(version) + ZipExt == t;
    assert DownloadUrl(arm, version) == UrlStem + a + (VersionSuffix(version) + ZipExt);
  }

  /** The download URL determines the architecture and the configured version. */
  lemma DownloadUrlRoundTrip(arm: bool, version: string, url: string)
    ensures ReleaseOfUrl(url) == Some((arm, version)) <==> DownloadUrl(arm, version) == url
  {
    var t := VersionSuffix(version) + ZipExt;
    if DownloadUrl(arm, version) == url {
      assert url == UrlStem + Arch(arm) + t;
      ReleaseOfUrlParts(arm, t);
      TailRoundTrip(version, t);
    }
    if ReleaseOfUrl(url) == Some((arm, version)) {
      UrlOfRelease(url, arm, version);
    }
  }

  /** The URL and the zip name carry the same `<suffix>.zip` tail. */
  lemma ZipAndUrlShareSuffix(arm: bool, version: string)
    ensures DownloadUrl(arm, version) == UrlStem + Arch(arm) + ZipName(version)[|ZipStem|..]
    ensures VersionOfZipName(ZipName(version)) == Some(version)
    ensures ReleaseOfUrl(DownloadUrl(arm, version)) == Some((arm, version))
  {
    assert ZipName(version)[|ZipStem|..] == VersionSuffix(version) + ZipExt;
    ZipNameRoundTrip(version, ZipName(version));
    DownloadUrlRoundTrip(arm, version, DownloadUrl(arm, version));
  }
}

=== FILE: paths.dfy ===
/**
 Path strings as the recipe and Ruby's File/FileUtils helpers treat them.
 Paths are compared literally: repeated slashes, `.` and `..` are not normalised.
 */
module Paths {

  type Path = string

  predicate NoSlash(s: string) {
    forall i | 0 <= i < |s| :: s[i] != '/'
  }

  predicate AllSlash(s: string) {
    forall i | 0 <= i < |s| :: s[i] == '/'
  }

  /** `p` is `root` itself or lies somewhere below it. */
  predicate Within(root: Path, p: Path) {
    p == root || root + "/" <= p
  }

  /** `dir + "/" + name` */
  function Join(dir: Path, name: string): (p: Path)
    ensures |p| == |dir| + 1 + |name|
    ensures dir + "/" <= p && p[|dir| + 1..] == name
  {
    dir + "/" + name
  }

  /**
   What a glob of every name in `dir` yields for an existing path `p`: a direct entry of
   `dir` whose name is non-empty, has no slash and does not start with a dot.
   */
  predicate IsGlobEntry(dir: Path, p: Path) {
    && |p| > |dir| + 1
    && dir + "/" <= p
    && NoSlash(p[|dir| + 1..])
    && p[|dir| + 1] != '.'
  }

  /** Index of the last slash in `p`, or -1 when there is none. */
  function LastSlash(p: Path): (i: int)
    ensures -1 <= i < |p|
    ensures i >= 0 ==> p[i] == '/'
    ensures forall j | i < j < |p| :: p[j] != '/'
  {
    if p == [] then -1
    else if p[|p| - 1] == '/' then |p| - 1
    else LastSlash(p[..|p| - 1])
  }

  /** Ruby's `File.basename` for a path without a trailing slash: the text after the last slash. */
  function Basename(p: Path): (b: string)
    ensures NoSlash(b) && |b| <= |p|
  {
    p[LastSlash(p) + 1..]
  }

  /**
   Ruby's `File.dirname` for a path without a trailing slash: everything before
   the last slash, `/` when that slash is the first character, `.` when there is none.
   */
  function Dirname(p: Path): (d: Path)
    ensures LastSlash(p) > 0 ==> d + "/" <= p && |d| < |p|
  {
    var i := LastSlash(p);
    if i < 0 then "." else if i == 0 then "/" else p[..i]
  }

  /** The parent of an absolute path is an absolute path, and shorter unless the path is the root. */
  lemma DirnameOfAbsolute(p: Path)
    requires |p| > 0 && p[0] == '/'
    ensures var d := Dirname(p); |d| > 0 && d[0] == '/' && (d == p || |d| < |p|)
  {
    assert p[0] == '/';
  }

  /** FileUtils drops a single trailing slash from the paths it is given. */
  function ChompSlash(p: Path): (q: Path)
    ensures q <= p && |p| - 1 <= |q|
  {
    if |p| > 1 && p[|p| - 1] == '/' then p[..|p| - 1] else p
  }

  lemma {:induction false} LastSlashOfJoin(dir: Path, name: string)
    requires NoSlash(name)
    ensures LastSlash(Join(dir, name)) == |dir|
    decreases |name|
  {
    var p := Join(dir, name);
    if name == [] {
      assert p[|p| - 1] == '/';
    } else {
      assert p[..|p| - 1] == Join(dir, name[..|name| - 1]);
      LastSlashOfJoin(dir, name[..|name| - 1]);
    }
  }

  /** Splitting a joined path gives back its parts. */
  lemma JoinParts(dir: Path, name: string)
    requires NoSlash(name)
    ensures Basename(Join(dir, name)) == name
    ensures |dir| > 0 ==> Dirname(Join(dir, name)) == dir
  {
    LastSlashOfJoin(dir, name);
  }

  lemma SlashAfterPrefix(p: Path, q: Path)
    ensures p + "/" <= q ==> q[|p|] == '/'
  {
    if p + "/" <= q {
      assert q[|p|] == (p + "/")[|p|];
    }
  }

  lemma GlobEntryNameHasNoSlash(dir: Path, p: Path)
    requires IsGlobEntry(dir, p)
    ensures forall i | |dir| + 1 <= i < |p| :: p[i] != '/'
  {
    forall i | |dir| + 1 <= i < |p|
      ensures p[i] != '/'
    {
      assert p[|dir| + 1..][i - |dir| - 1] == p[i];
    }
  }

  /** Nothing strictly below a glob entry of `dir` is another glob entry of `dir`. */
  lemma GlobEntriesNotNested(dir: Path, p: Path, q: Path)
    requires IsGlobEntry(dir, p) && IsGlobEntry(dir, q) && Within(p, q)
    ensures p == q
  {
    GlobEntryNameHasNoSlash(dir, q);
    SlashAfterPrefix(p, q);
  }

  /** Whatever lies below `x` lies below every path `x` lies in. */
  lemma WithinJoin(a: Path, x: Path, name: string)
    requires Within(a, x)
    ensures Within(a, Join(x, name)) && Within(x, Join(x, name))
  {
    assert Join(x, name) == x + "/" + name;
    if a != x {
      assert a + "/" <= x <= Join(x, name);
    }
  }

  /** Two paths that both contain `p` are nested one in the other. */
  lemma AncestorsNested(a: Path, b: Path, p: Path)
    requires Within(a, p) && Within(b, p)
    ensures Within(a, b) || Within(b, a)
  {
    if p != a && p != b {
      if |a| < |b| {
        assert (a + "/") == p[..|a| + 1] == b[..|a| + 1];
      } else if |b| < |a| {
        assert (b + "/") == p[..|b| + 1] == a[..|b| + 1];
      } else {
        assert a == p[..|a|] == b;
      }
    }
  }

  /** Two different slash-free names give entries of `dir` neither of which contains the other. */
  lemma SiblingsApart(dir: Path, a: string, b: string)
    requires NoSlash(a) && NoSlash(b) && a != b
    ensures !Within(Join(dir, a), Join(dir, b))
  {
    var pa, pb := Join(dir, a), Join(dir, b);
    if |a| < |b| {
      assert pb[|dir| + 1 + |a|] == b[|a|];
      SlashAfterPrefix(pa, pb);
    } else if |a| == |b| {
      assert a == pa[|dir| + 1..] && b == pb[|dir| + 1..];
    }
  }
}


/** The value-or-nothing wrapper used for Ruby's `nil` results. */
module Optional {

  datatype Option<T> = None | Some(value: T)
}

=== FILE: recipe.dfy ===
/**
 One converge of the recipe, its resources run in order as an explicit
 sequence: the clean-ups, the download, the extraction it notifies and the
 install block the extraction notifies.
 */
module Recipe {
  import opened Paths
  import opened Optional
  import opened FileSystem
  import opened Naming
  import opened StaleZips
  import opened VersionParse
  import opened Installer

  /**
   What `remote_file` reports for the download URL: a new file written, the
   cached copy already current, or a failure that `ignore_failure` swallows.
   */
  datatype Fetch = Downloaded | Unchanged | Failed

  /** The archive's entries by path relative to the destination, the leading component already stripped. */
  type Archive = map<Path, Entry>

  /** `archive` placed below `dest`. */
  function Placed(dest: Path, archive: Archive): (t: Tree)
    ensures forall k | k in t :: dest + "/" <= k
    ensures forall k | k in archive :: Join(dest, k) in t && t[Join(dest, k)] == archive[k]
  {
    forall k1, k2 | k1 in archive && k2 in archive && Join(dest, k1) == Join(dest, k2) ensures k1 == k2 {
      assert k1 == Join(dest, k1)[|dest| + 1..];
    }
    map k | k in archive :: Join(dest, k) := archive[k]
  }

  /**
   `archive_file` with `strip_components 1` and `overwrite` left at its default
   (false) into the unpack directory. A missing archive fails the run. A
   destination `File.exist?` sees (it resolves) is left as it is: nothing is
   extracted and nothing notified. A missing destination is created and the
   archive's entries are written below it. A dangling link there makes `mkdir_p`
   raise, which fails the run. `extracted` says whether the resource changed
   anything, which is what notifies the install block.
   */
  method Extract(h: Host, cacheDir: Path, version: string, archive: Option<Archive>, now: int)
    returns (r: Outcome, extracted: bool)
    modifies h
    ensures archive.None? ==> r == Fail(NoArchive(Target(cacheDir, version))) && !extracted && h.fs == old(h.fs)
    ensures var u := UnpackDir(cacheDir);
      archive.Some? && Stat(old(h.fs), u).Some? ==> r == Pass && !extracted && h.fs == old(h.fs)
    ensures var u := UnpackDir(cacheDir);
      archive.Some? && u in old(h.fs) && Stat(old(h.fs), u).None? ==>
        r == Fail(NotADirectory(u)) && !extracted && h.fs == old(h.fs)
    ensures var u := UnpackDir(cacheDir);
      archive.Some? && u !in old(h.fs) ==>
        r == Pass && extracted && h.fs == old(h.fs)[u := Dir(now)] + Placed(u, archive.value)
  {
    extracted := false;
    if archive.None? {
      return Fail(NoArchive(Target(cacheDir, version))), extracted;
    }
    var u := UnpackDir(cacheDir);
    if Stat(h.fs, u).Some? {
      return Pass, extracted;
    }
    if u in h.fs {
      return Fail(NotADirectory(u)), extracted;
    }
    h.fs := h.fs[u := Dir(now)] + Placed(u, archive.value);
    return Pass, true;
  }

  /**
   A download that changed the cached archive (lines 57-62): the archive is written,
   which notifies its extraction (lines 64-70), whose change in turn notifies the
   install block (lines 76-98). `installed` says whether the install block ran.
   */
  method OnDownload(h: Host, cacheDir: Path, version: string, archive: Option<Archive>,
                    stdout: string, now: int) returns (r: Outcome, installed: bool)
    modifies h
    ensures archive.None? ==> r == Fail(NoArchive(Target(cacheDir, version))) && !installed
    ensures var u := UnpackDir(cacheDir);
      archive.Some? && u in old(h.fs) && Stat(old(h.fs), u).None? ==>
        && !installed && (r == Pass || r == Fail(NotADirectory(u)))
        && (Stat(old(h.fs)[Target(cacheDir, version) := File], u).None? ==> r == Fail(NotADirectory(u)))
    ensures archive.Some? && UnpackDir(cacheDir) !in old(h.fs) ==>
      installed && (ParseVersion(stdout).None? ==> r == Fail(NoVersion(stdout)))
  {
    installed := false;
    var u := UnpackDir(cacheDir);
    var target := Target(cacheDir, version);
    ghost var fsB := h.fs;
    h.PutFile(target);
    TargetOutsideUnpackDir(cacheDir, version);
    ghost var fsC := h.fs;
    assert Submap(fsC, fsB[target := File]);
    StatInBigger(fsC, fsB[target := File], u);
    var extracted;
    r, extracted := Extract(h, cacheDir, version, archive, now);
    if r.Fail? || !extracted {
      return;
    }
    var order;
    ghost var published;
    r, order, published := InstallBlock(h, cacheDir, stdout, now);
    installed := true;
  }

  /**
   One converge for the node's `arm?` flag and configured version. The world
   outside the host is given: what the download did, what the archive holds and
   what the unpacked `aws --version` prints. `installed` says whether the install
   block ran.
   */
  method Converge(h: Host, cacheDir: Path, arm: bool, version: string, fetched: Fetch,
                  archive: Option<Archive>, stdout: string, now: int) returns (r: Outcome, url: string, installed: bool)
    modifies h
    ensures url == DownloadUrl(arm, version) && ReleaseOfUrl(url) == Some((arm, version))
    ensures Stat(old(h.fs), UnpackDir(cacheDir)).Some? && !IsDir(old(h.fs), UnpackDir(cacheDir)) ==>
      r == Fail(NotADirectory(UnpackDir(cacheDir))) && !installed && h.fs == old(h.fs)
    ensures var u := UnpackDir(cacheDir);
      Stat(old(h.fs), u).None? || IsDir(old(h.fs), u) ==>
      && (!fetched.Downloaded? ==>
            r == Pass && !installed && ZipsCleaned(UnpackRemoved(old(h.fs), cacheDir), h.fs, cacheDir, version))
      && (fetched.Downloaded? && archive.None? ==> r == Fail(NoArchive(Target(cacheDir, version))) && !installed)
      && (fetched.Downloaded? && archive.Some? && u in old(h.fs) && Stat(old(h.fs), u).None? ==>
            && !installed && (r == Pass || r == Fail(NotADirectory(u)))
            && (Stat(old(h.fs)[Target(cacheDir, version) := File], u).None? ==> r == Fail(NotADirectory(u))))
      && (fetched.Downloaded? && archive.Some? && (u !in old(h.fs) || IsDir(old(h.fs), u)) ==>
            && installed
            && (ParseVersion(stdout).None? ==> r == Fail(NoVersion(stdout))))
  {
    url := DownloadUrl(arm, version);
    installed := false;
    var u := UnpackDir(cacheDir);
    var target := Target(cacheDir, version);
    r := RemoveUnpackDir(h, cacheDir);
    if r.Fail? {
      return;
    }
    ghost var fsA := h.fs;
    RemoveStaleZips(h, cacheDir, version);
    ghost var fsB := h.fs;
    assert u !in ZipGlob(fsA, cacheDir);
    StatInBigger(fsB, fsA, u);
    match fetched
    case Unchanged =>
      return Pass, url, installed;
    case Failed =>
      return Pass, url, installed;
    case Downloaded =>
      assert Submap(fsB[target := File], fsA[target := File]);
      StatInBigger(fsB[target := File], fsA[target := File], u);
      r, installed := OnDownload(h, cacheDir, version, archive, stdout, now);
  }
}

=== FILE: retention.dfy ===
/**
 Retention: the version directories under `/opt/awscli/v2` other than `current`
 are ordered newest first by mtime and all but the first five are removed.
 */
module Retention {
  import opened Paths
  import opened FileSystem

  const V2 := "/opt/awscli/v2"
  /** The link that points at the version in use. */
  const Current := V2 + "/current"
  /** How many version directories survive a prune. */
  const Keep := 5

  /** The version glob of the retention step, filtered by `File.directory?(dir) && dir != current`. */
  function Candidates(fs: Tree): (ps: set<Path>)
    ensures forall p | p in ps :: p in fs && IsGlobEntry(V2, p) && IsDir(fs, p) && p != Current
    ensures forall p, q | p in ps && q in ps && Within(p, q) :: p == q
  {
    forall p, q | IsGlobEntry(V2, p) && IsGlobEntry(V2, q) && Within(p, q) ensures p == q {
      GlobEntriesNotNested(V2, p, q);
    }
    set p | p in fs && IsGlobEntry(V2, p) && IsDir(fs, p) && p != Current
  }

  /** The mtime of every candidate. */
  function Mtimes(fs: Tree): (mt: map<Path, int>)
    ensures mt.Keys == Candidates(fs)
  {
    map p | p in Candidates(fs) :: Mtime(fs, p)
  }

  predicate Distinct(xs: seq<Path>) {
    forall i, j | 0 <= i < j < |xs| :: xs[i] != xs[j]
  }

  /** Each entry is at least as new as the next one. */
  predicate NewestFirst(xs: seq<Path>, mt: map<Path, int>)
    requires forall x | x in xs :: x in mt
  {
    forall i | 0 <= i < |xs| - 1 :: mt[xs[i]] >= mt[xs[i + 1]]
  }

  /** Ruby's `versions[5..] || []`: the entries from index 5 on, none when there are fewer than 5. */
  function ToDelete(xs: seq<Path>): (d: seq<Path>)
    ensures forall p | p in d :: p in xs
    ensures d == [] <==> |xs| <= Keep
  {
    if |xs| >= Keep then xs[Keep..] else []
  }

  /** The entries that survive the prune: the first five, the rest being `ToDelete`. */
  function Kept(xs: seq<Path>): (k: seq<Path>)
    ensures k + ToDelete(xs) == xs && |k| <= Keep
  {
    if |xs| >= Keep then xs[..Keep] else xs
  }

  /** The paths `rm_rf` removes when run on each of `ps` in turn, all from the tree `fs`. */
  function Swept(fs: Tree, ps: seq<Path>): (ks: set<Path>)
    ensures ks <= fs.Keys
  {
    if ps == [] then {} else Swept(fs, ps[..|ps| - 1]) + RmRfKeys(fs, ps[|ps| - 1])
  }

  /** `sorted` with `p` placed before the first entry older than it. */
  function InsertByMtime(sorted: seq<Path>, p: Path, mt: map<Path, int>): (r: seq<Path>)
    requires p in mt && forall x | x in sorted :: x in mt
    requires NewestFirst(sorted, mt)
    ensures multiset(r) == multiset(sorted) + multiset{p}
    ensures forall x | x in r :: x in mt
    ensures NewestFirst(r, mt)
    ensures |r| > 0 && (r[0] == p || (sorted != [] && r[0] == sorted[0]))
  {
    if sorted == [] || mt[p] >= mt[sorted[0]] then [p] + sorted
    else
      var rest := InsertByMtime(sorted[1..], p, mt);
      assert sorted == [sorted[0]] + sorted[1..];
      [sorted[0]] + rest
  }

  /** The glob's result as a list: every path of `s` once, in no particular order. */
  method Listing(s: set<Path>) returns (xs: seq<Path>)
    ensures Distinct(xs) && |xs| == |s|
    ensures forall x | x in xs :: x in s
    ensures forall x | x in s :: x in xs
  {
    xs := [];
    var rest := s;
    while rest != {}
      invariant rest <= s
      invariant Distinct(xs) && |xs| + |rest| == |s|
      invariant forall x | x in xs :: x in s && x !in rest
      invariant forall x | x in s :: x in xs || x in rest
      decreases rest
    {
      var x :| x in rest;
      xs := xs + [x];
      rest := rest - {x};
    }
  }

  /** `versions.sort_by! { |dir| File.mtime(dir) }.reverse!`: the same entries, newest first. */
  method SortNewestFirst(versions: seq<Path>, mt: map<Path, int>) returns (sorted: seq<Path>)
    requires forall x | x in versions :: x in mt
    ensures multiset(sorted) == multiset(versions)
    ensures forall x | x in sorted :: x in mt
    ensures NewestFirst(sorted, mt)
  {
    sorted := [];
    for i := 0 to |versions|
      invariant multiset(sorted) == multiset(versions[..i])
      invariant forall x | x in sorted :: x in mt
      invariant NewestFirst(sorted, mt)
    {
      assert versions[..i + 1] == versions[..i] + [versions[i]];
      sorted := InsertByMtime(sorted, versions[i], mt);
    }
    assert versions[..|versions|] == versions;
  }

  /** `versions_to_delete.each { |dir| FileUtils.rm_rf(dir) }` over distinct candidates. */
  method RemoveEach(h: Host, toDelete: seq<Path>)
    requires Distinct(toDelete)
    requires forall p | p in toDelete :: p in Candidates(h.fs)
    modifies h
    ensures h.fs == old(h.fs) - Swept(old(h.fs), toDelete)
  {
    for j := 0 to |toDelete|
      invariant h.fs == old(h.fs) - Swept(old(h.fs), toDelete[..j])
    {
      assert toDelete[..j + 1][..j] == toDelete[..j];
      SweptAvoidsOtherCandidates(old(h.fs), toDelete, j);
      RmRfOfShrunk(old(h.fs), Swept(old(h.fs), toDelete[..j]), toDelete[j]);
      h.RmRf(toDelete[j]);
    }
    assert toDelete[..|toDelete|] == toDelete;
  }

  /**
   `order` lists every candidate of `before` once, newest first, and `after` is
   `before` less everything `rm_rf` of the entries from index 5 on removes.
   */
  predicate PrunedTo(before: Tree, order: seq<Path>, after: Tree) {
    && Distinct(order) && |order| == |Candidates(before)|
    && (forall p | p in order :: p in Candidates(before))
    && (forall p | p in Candidates(before) :: p in order)
    && NewestFirst(order, Mtimes(before))
    && after == before - Swept(before, ToDelete(order))
  }

  /**
   Lines 92-98 of the install block: lists the candidates, orders them newest
   first and removes every one from index 5 on with `rm_rf`. Returns the order used.
   */
  method Prune(h: Host) returns (order: seq<Path>)
    modifies h
    ensures PrunedTo(old(h.fs), order, h.fs)
  {
    var cands := Candidates(h.fs);
    var versions := Listing(cands);
    order := SortNewestFirst(versions, Mtimes(h.fs));
    SamePathsSameOrder(versions, order);
    PruneCount(order);
    var toDelete := ToDelete(order);
    assert forall p | p in toDelete :: p in order;
    RemoveEach(h, toDelete);
  }

  /** A list whose entries are those of a distinct list, each as often, is itself distinct and lists the same paths. */
  lemma SamePathsSameOrder(a: seq<Path>, b: seq<Path>)
    requires Distinct(a) && multiset(a) == multiset(b)
    ensures Distinct(b) && |b| == |a|
    ensures forall x | x in a :: x in b
    ensures forall x | x in b :: x in a
  {
    assert |b| == |multiset(b)| == |multiset(a)| == |a|;
    forall x | x in a ensures x in b {
      assert x in multiset(a);
    }
    forall x | x in b ensures x in a {
      assert x in multiset(b);
    }
    forall i, j | 0 <= i < j < |b| ensures b[i] != b[j] {
      if b[i] == b[j] {
        TwiceCounted(b, i, j);
        DistinctCountedOnce(a, b[i]);
      }
    }
  }

  lemma TwiceCounted(b: seq<Path>, i: int, j: int)
    requires 0 <= i < j < |b| && b[i] == b[j]
    ensures multiset(b)[b[i]] >= 2
  {
    assert b == b[..j] + [b[j]] + b[j + 1..];
    assert b[i] in b[..j];
  }

  lemma {:induction false} DistinctCountedOnce(a: seq<Path>, x: Path)
    requires Distinct(a)
    ensures multiset(a)[x] <= 1
    decreases |a|
  {
    if a != [] {
      var a' := a[..|a| - 1];
      assert a == a' + [a[|a| - 1]];
      DistinctCountedOnce(a', x);
      if x == a[|a| - 1] {
        assert x !in a';
      }
    }
  }

  /** A path `rm_rf` removes when run on `ps` lies at or below one of `ps`. */
  lemma {:induction false} SweptBelow(fs: Tree, ps: seq<Path>, k: Path)
    requires k in Swept(fs, ps)
    ensures exists p | p in ps :: Within(p, k)
    decreases |ps|
  {
    var last := ps[|ps| - 1];
    if k in RmRfKeys(fs, last) {
      assert last in ps && Within(last, k);
    } else {
      SweptBelow(fs, ps[..|ps| - 1], k);
      var p :| p in ps[..|ps| - 1] && Within(p, k);
      assert p in ps;
    }
  }

  /** A candidate in a distinct list of candidates is not removed by `rm_rf` of the ones before it. */
  lemma SweptAvoidsOtherCandidates(fs: Tree, xs: seq<Path>, i: int)
    requires Distinct(xs) && 0 <= i < |xs|
    requires forall p | p in xs :: p in Candidates(fs)
    ensures xs[i] !in Swept(fs, xs[..i])
  {
    forall p | p in xs[..i] ensures !Within(p, xs[i]) {
      var j :| 0 <= j < i && xs[j] == p;
      assert p in Candidates(fs) && xs[i] in Candidates(fs) && p != xs[i];
    }
    if xs[i] in Swept(fs, xs[..i]) {
      SweptBelow(fs, xs[..i], xs[i]);
    }
  }

  /** Running `rm_rf p` on a tree some paths other than `p` were already removed from. */
  lemma RmRfOfShrunk(fs: Tree, gone: set<Path>, p: Path)
    requires p !in gone
    ensures (fs - gone) - RmRfKeys(fs - gone, p) == fs - (gone + RmRfKeys(fs, p))
  {
  }

  /** The paths a prune removes: each removed candidate and, for a real directory, everything below it. */
  lemma PruneRemovesOnlyBelowDeleted(fs: Tree, order: seq<Path>, k: Path)
    requires k in Swept(fs, ToDelete(order))
    ensures exists p | p in ToDelete(order) :: Within(p, k)
  {
    SweptBelow(fs, ToDelete(order), k);
  }

  /** The `current` link is not a candidate, so pruning a list of candidates leaves it as it was. */
  lemma PruneKeepsCurrent(fs: Tree, order: seq<Path>)
    requires forall p | p in order :: p in Candidates(fs)
    requires Current in fs
    ensures Current in fs - Swept(fs, ToDelete(order)) && (fs - Swept(fs, ToDelete(order)))[Current] == fs[Current]
  {
    if Current in Swept(fs, ToDelete(order)) {
      SweptBelow(fs, ToDelete(order), Current);
      var p :| p in ToDelete(order) && Within(p, Current);
      assert p in order;
      CurrentIsGlobEntry();
      GlobEntriesNotNested(V2, p, Current);
    }
  }

  lemma CurrentIsGlobEntry()
    ensures IsGlobEntry(V2, Current)
  {
    assert Current[|V2| + 1..] == "current";
  }

  /** No entry of a distinct list appears both before and from index `k`. */
  lemma DistinctSplit(xs: seq<Path>, k: int)
    requires Distinct(xs) && 0 <= k <= |xs|
    ensures forall p | p in xs[..k] :: p !in xs[k..]
    ensures Distinct(xs[k..])
  {
    forall p | p in xs[..k] ensures p !in xs[k..] {
      var i :| 0 <= i < k && xs[i] == p;
      assert forall j | 0 <= j < |xs[k..]| :: xs[k..][j] == xs[k + j] != xs[i];
    }
    assert forall i, j | 0 <= i < j < |xs[k..]| :: xs[k..][i] == xs[k + i] != xs[k + j] == xs[k..][j];
  }

  /** A prune deletes exactly `max(0, n - 5)` of the `n` candidates: nothing when there are at most five. */
  lemma PruneCount(order: seq<Path>)
    requires Distinct(order)
    ensures |ToDelete(order)| == if |order| > Keep then |order| - Keep else 0
    ensures |order| <= Keep ==> ToDelete(order) == []
    ensures Distinct(ToDelete(order))
    ensures forall p | p in order :: p in ToDelete(order) <==> p !in Kept(order)
  {
    if |order| >= Keep {
      DistinctSplit(order, Keep);
      assert order == order[..Keep] + order[Keep..];
    }
  }

  /** In a newest-first list every entry is at least as new as every entry after it. */
  lemma {:induction false} NewestFirstPairwise(xs: seq<Path>, mt: map<Path, int>, i: int, j: int)
    requires forall x | x in xs :: x in mt
    requires NewestFirst(xs, mt) && 0 <= i <= j < |xs|
    ensures mt[xs[i]] >= mt[xs[j]]
    decreases j - i
  {
    if i < j {
      NewestFirstPairwise(xs, mt, i + 1, j);
    }
  }

  /** Every deleted candidate is no newer than every kept one: the five newest survive. */
  lemma PruneKeepsNewest(order: seq<Path>, mt: map<Path, int>, old_: Path, kept: Path)
    requires forall x | x in order :: x in mt
    requires NewestFirst(order, mt) && Distinct(order)
    requires old_ in ToDelete(order) && kept in Kept(order)
    ensures mt[old_] <= mt[kept]
  {
    var j :| Keep <= j < |order| && order[j] == old_;
    var i :| 0 <= i < Keep && order[i] == kept;
    NewestFirstPairwise(order, mt, i, j);
  }

  /** After a prune of every candidate, only the kept ones are candidates: at most five version directories remain. */
  lemma PruneBound(fs: Tree, order: seq<Path>)
    requires Distinct(order)
    requires forall p | p in order :: p in Candidates(fs)
    requires forall p | p in Candidates(fs) :: p in order
    ensures forall p | p in Candidates(fs - Swept(fs, ToDelete(order))) :: p in Kept(order)
    ensures |Candidates(fs - Swept(fs, ToDelete(order)))| <= Keep
  {
    var after := fs - Swept(fs, ToDelete(order));
    var left := Candidates(after);
    assert Submap(after, fs);
    forall p | p in left ensures p in Kept(order) {
      IsDirInBigger(after, fs, p);
      assert p in Candidates(fs);
      if |order| >= Keep {
        assert order == order[..Keep] + order[Keep..];
        if p !in order[..Keep] {
          assert p in order[Keep..];
          assert p in RmRfKeys(fs, p);
          SweptCovers(fs, order[Keep..], p);
        }
      }
    }
    SetOfSeqBound(left, Kept(order));
  }

  /** Every path of `ps` that exists is removed by `rm_rf` of `ps`. */
  lemma {:induction false} SweptCovers(fs: Tree, ps: seq<Path>, p: Path)
    requires p in ps && p in fs
    ensures p in Swept(fs, ps)
    decreases |ps|
  {
    if ps[|ps| - 1] != p {
      assert p in ps[..|ps| - 1];
      SweptCovers(fs, ps[..|ps| - 1], p);
    }
  }

  /** A set whose members all appear in a list has no more members than the list has entries. */
  lemma {:induction false} SetOfSeqBound(s: set<Path>, xs: seq<Path>)
    requires forall p | p in s :: p in xs
    ensures |s| <= |xs|
    decreases |xs|
  {
    if xs != [] {
      var x := xs[|xs| - 1];
      forall p | p in s - {x} ensures p in xs[..|xs| - 1] {
        assert p in xs;
      }
      SetOfSeqBound(s - {x}, xs[..|xs| - 1]);
    }
  }

  /** The candidates other than `p` whose mtime is at least `t`. */
  function AtLeastAsNew(fs: Tree, p: Path, t: int): set<Path> {
    set q | q in Candidates(fs) && q != p && Mtime(fs, q) >= t
  }

  /** A distinct list whose entries all lie in `s` is no longer than `s` is large. */
  lemma {:induction false} DistinctWithin(xs: seq<Path>, s: set<Path>)
    requires Distinct(xs) && forall x | x in xs :: x in s
    ensures |xs| <= |s|
    decreases |xs|
  {
    if xs != [] {
      var x := xs[|xs| - 1];
      var rest := xs[..|xs| - 1];
      assert forall y | y in rest :: y in s - {x} by {
        forall y | y in rest ensures y in s - {x} {
          var i :| 0 <= i < |rest| && rest[i] == y;
          assert xs[i] == y;
        }
      }
      DistinctWithin(rest, s - {x});
    }
  }

  /**
   A version directory with fewer than five other candidates at least as new as
   it is among the five the prune keeps, whatever order ties are listed in.
   */
  lemma KeptWhenFewNewer(fs: Tree, order: seq<Path>, p: Path)
    requires Distinct(order)
    requires forall q | q in order :: q in Candidates(fs)
    requires forall q | q in Candidates(fs) :: q in order
    requires NewestFirst(order, Mtimes(fs))
    requires p in Candidates(fs) && |AtLeastAsNew(fs, p, Mtime(fs, p))| < Keep
    ensures p in Kept(order) && p !in ToDelete(order)
  {
    var i :| 0 <= i < |order| && order[i] == p;
    var before := order[..i];
    forall q | q in before ensures q in AtLeastAsNew(fs, p, Mtime(fs, p)) {
      var j :| 0 <= j < i && order[j] == q;
      NewestFirstPairwise(order, Mtimes(fs), j, i);
    }
    assert Distinct(before) by {
      forall a, b | 0 <= a < b < |before| ensures before[a] != before[b] {
        assert before[a] == order[a] && before[b] == order[b];
      }
    }
    DistinctWithin(before, AtLeastAsNew(fs, p, Mtime(fs, p)));
    PruneCount(order);
    assert p in Kept(order) by {
      if |order| >= Keep {
        assert order[..Keep][i] == p;
      }
    }
  }
}

=== FILE: stale_zips.dfy ===
/**
 The two clean-ups the recipe does in the cache directory before downloading:
 the unpack directory is deleted recursively, and every cached `awscliv2*.zip`
 other than the archive about to be fetched is deleted.
 */
module StaleZips {
  import opened Paths
  import opened FileSystem
  import opened Naming
  import opened Optional

  /** Where the archive is unpacked. */
  function UnpackDir(cacheDir: Path): Path {
    cacheDir + "/awscli"
  }

  /** Where the archive for `version` is cached. */
  function Target(cacheDir: Path, version: string): Path {
    Join(cacheDir, ZipName(version))
  }

  /**
   What `Dir.glob("<cacheDir>/awscliv2*.zip")` returns: the entries of the cache
   directory with a matching name. The cached archive of every version without a
   slash is matched when it exists; the unpack directory never is.
   */
  function ZipGlob(fs: Tree, cacheDir: Path): (ps: set<Path>)
    ensures forall p | p in ps :: p in fs && cacheDir + "/" <= p && IsZipGlobName(p[|cacheDir| + 1..])
    ensures forall v | NoSlash(v) && Target(cacheDir, v) in fs :: Target(cacheDir, v) in ps
    ensures UnpackDir(cacheDir) !in ps
  {
    assert UnpackDir(cacheDir)[|cacheDir| + 1..] == "awscli";
    forall v | NoSlash(v) ensures cacheDir + "/" <= Target(cacheDir, v) && Target(cacheDir, v)[|cacheDir| + 1..] == ZipName(v) {
      assert Target(cacheDir, v) == cacheDir + "/" + ZipName(v);
    }
    set p | p in fs && cacheDir + "/" <= p && IsZipGlobName(p[|cacheDir| + 1..])
  }

  /** A path in the cache directory is the target archive exactly when its name reads back as the configured version. */
  lemma TargetByName(cacheDir: Path, version: string, p: Path)
    requires cacheDir + "/" <= p
    ensures p == Target(cacheDir, version) <==> VersionOfZipName(p[|cacheDir| + 1..]) == Some(version)
  {
    var name := p[|cacheDir| + 1..];
    assert p == cacheDir + "/" + name;
    ZipNameRoundTrip(version, name);
  }

  /**
   The paths the loop deletes: the matches except the target archive, that is
   exactly the matches whose name reads back as some other configured version or
   as none.
   */
  function StaleZips(fs: Tree, cacheDir: Path, version: string): (ps: set<Path>)
    ensures Target(cacheDir, version) !in ps
    ensures ps <= fs.Keys
    ensures forall p | p in ZipGlob(fs, cacheDir) :: p in ps <==> VersionOfZipName(p[|cacheDir| + 1..]) != Some(version)
  {
    forall p | p in ZipGlob(fs, cacheDir)
      ensures p == Target(cacheDir, version) <==> VersionOfZipName(p[|cacheDir| + 1..]) == Some(version)
    {
      TargetByName(cacheDir, version, p);
    }
    ZipGlob(fs, cacheDir) - {Target(cacheDir, version)}
  }

  /**
   The `directory ... action :delete, recursive true` step: nothing happens when
   the path does not exist (a dangling link counts as missing), a non-directory
   there makes the run fail, a directory (or a link to one) is removed as `rm_rf` would.
   */
  method RemoveUnpackDir(h: Host, cacheDir: Path) returns (r: Outcome)
    modifies h
    ensures var p := UnpackDir(cacheDir);
      if Stat(old(h.fs), p).None? then r == Pass && h.fs == old(h.fs)
      else if !IsDir(old(h.fs), p) then r == Fail(NotADirectory(p)) && h.fs == old(h.fs)
      else r == Pass && h.fs == old(h.fs) - RmRfKeys(old(h.fs), p)
  {
    var p := UnpackDir(cacheDir);
    if Stat(h.fs, p).None? {
      return Pass;
    }
    if !IsDir(h.fs, p) {
      return Fail(NotADirectory(p));
    }
    h.RmRf(p);
    return Pass;
  }

  /**
   What the `Dir.glob(...).each` loop may leave behind from `before`, whatever
   order the glob lists the matches in: nothing is added or altered; every path
   that is not a stale match stays; a stale match that is a file or directory
   goes; one that does not resolve (`File.exist?` false) stays; and a stale match
   that is left does not resolve afterwards. A link to another stale match goes
   or stays depending on which of the two the loop reaches first.
   */
  ghost predicate ZipsCleaned(before: Tree, after: Tree, cacheDir: Path, version: string) {
    var stale := StaleZips(before, cacheDir, version);
    && Submap(after, before)
    && (forall p | p in before && p !in stale :: p in after)
    && (forall p | p in stale && !before[p].Link? :: p !in after)
    && (forall p | p in stale && Stat(before, p).None? :: p in after)
    && (forall p | p in stale && p in after :: Stat(after, p).None?)
  }

  /** The `Dir.glob(...).each` loop: deletes each match that is not the target archive. */
  method RemoveStaleZips(h: Host, cacheDir: Path, version: string)
    modifies h
    ensures ZipsCleaned(old(h.fs), h.fs, cacheDir, version)
  {
    var target := Target(cacheDir, version);
    var matches := ZipGlob(h.fs, cacheDir);
    ghost var all := matches;
    ghost var stale := all - {target};
    while matches != {}
      invariant matches <= all
      invariant Submap(h.fs, old(h.fs))
      invariant forall p | p in old(h.fs) && (p !in stale || p in matches) :: p in h.fs
      invariant forall p | p in stale && p !in matches && !old(h.fs)[p].Link? :: p !in h.fs
      invariant forall p | p in stale && Stat(old(h.fs), p).None? :: p in h.fs
      invariant forall p | p in stale && p !in matches && p in h.fs :: Stat(h.fs, p).None?
      decreases matches
    {
      var zip :| zip in matches;
      ghost var fs0 := h.fs;
      StatInBigger(fs0, old(h.fs), zip);
      if zip != target {
        h.Remove(zip);
      }
      forall p | p in stale && p in h.fs ensures Stat(fs0, p).None? ==> Stat(h.fs, p).None? {
        StatInBigger(h.fs, fs0, p);
      }
      matches := matches - {zip};
    }
    assert stale == StaleZips(old(h.fs), cacheDir, version);
  }

  /** The target archive is never deleted by the cleanup, and neither is anything that is not a match. */
  lemma CleanupKeeps(before: Tree, after: Tree, cacheDir: Path, version: string, p: Path)
    requires ZipsCleaned(before, after, cacheDir, version)
    requires p in before && (p == Target(cacheDir, version) || p !in ZipGlob(before, cacheDir))
    ensures p in after && after[p] == before[p]
  {
  }

  /**
   After the cleanup the only match that exists is the target archive: any other
   match left is a link that resolves to nothing. The target stays matched when it was there.
   */
  lemma CleanupLeavesOnlyTarget(before: Tree, after: Tree, cacheDir: Path, version: string)
    requires ZipsCleaned(before, after, cacheDir, version)
    ensures forall p | p in ZipGlob(after, cacheDir) && p != Target(cacheDir, version) :: Stat(after, p).None?
    ensures Target(cacheDir, version) in before && NoSlash(version) ==>
      Target(cacheDir, version) in ZipGlob(after, cacheDir)
  {
    var target := Target(cacheDir, version);
    assert forall p | p in ZipGlob(after, cacheDir) :: p in ZipGlob(before, cacheDir);
    if target in before && NoSlash(version) {
      assert target[|cacheDir| + 1..] == ZipName(version);
      assert target in after;
    }
  }

  /** Running the cleanup a second time deletes nothing. */
  lemma CleanupIdempotent(before: Tree, after: Tree, again: Tree, cacheDir: Path, version: string)
    requires ZipsCleaned(before, after, cacheDir, version)
    requires ZipsCleaned(after, again, cacheDir, version)
    ensures again == after
  {
    CleanupLeavesOnlyTarget(before, after, cacheDir, version);
    assert forall p | p in after :: p in again;
    assert again.Keys == after.Keys;
  }

  /** The tree after the unpack directory is deleted, when it is missing or a directory. */
  function UnpackRemoved(fs: Tree, cacheDir: Path): Tree {
    if IsDir(fs, UnpackDir(cacheDir)) then fs - RmRfKeys(fs, UnpackDir(cacheDir)) else fs
  }

  /** The cached archive is not inside the unpack directory. */
  lemma TargetOutsideUnpackDir(cacheDir: Path, version: string)
    ensures !Within(UnpackDir(cacheDir), Target(cacheDir, version))
  {
    var t := Target(cacheDir, version);
    assert t == cacheDir + "/" + (ZipStem + VersionSuffix(version) + ZipExt);
    assert t[|cacheDir| + 7] == 'v';
    SlashAfterPrefix(UnpackDir(cacheDir), t);
  }

  /** Both clean-ups together keep the cached archive for the configured version, entry unchanged. */
  lemma CleanedKeepsTarget(fs: Tree, after: Tree, cacheDir: Path, version: string)
    requires Target(cacheDir, version) in fs
    requires ZipsCleaned(UnpackRemoved(fs, cacheDir), after, cacheDir, version)
    ensures Target(cacheDir, version) in after && after[Target(cacheDir, version)] == fs[Target(cacheDir, version)]
  {
    TargetOutsideUnpackDir(cacheDir, version);
  }

  /**
   After both clean-ups nothing resolves at the unpack path and the only match
   that exists is the target archive; running both clean-ups again changes nothing.
   */
  lemma CleanedLeavesOnlyTarget(fs: Tree, after: Tree, again: Tree, cacheDir: Path, version: string)
    requires Stat(fs, UnpackDir(cacheDir)).None? || IsDir(fs, UnpackDir(cacheDir))
    requires ZipsCleaned(UnpackRemoved(fs, cacheDir), after, cacheDir, version)
    ensures Stat(after, UnpackDir(cacheDir)).None?
    ensures forall p | p in ZipGlob(after, cacheDir) && p != Target(cacheDir, version) :: Stat(after, p).None?
    ensures ZipsCleaned(UnpackRemoved(after, cacheDir), again, cacheDir, version) ==> again == after
  {
    var fs1 := UnpackRemoved(fs, cacheDir);
    StatInBigger(after, fs1, UnpackDir(cacheDir));
    CleanupLeavesOnlyTarget(fs1, after, cacheDir, version);
    if ZipsCleaned(UnpackRemoved(after, cacheDir), again, cacheDir, version) {
      CleanupIdempotent(fs1, after, again, cacheDir, version);
    }
  }
}

=== FILE: version_parse.dfy ===
/**
 Reading the installed version off `aws --version` output:
 `stdout.split(" ").first.split("/").last`, with Ruby's splitting rules.
 */
module VersionParse {
  import opened Paths
  import opened Optional

  /** The separators of Ruby's `split(" ")`: space, tab, newline, vertical tab, form feed, carriage return. */
  predicate IsSpace(c: char) {
    c == ' ' || c == '\t' || c == '\n' || c == '\U{B}' || c == '\U{C}' || c == '\r'
  }

  predicate AllSpace(s: string) {
    forall i | 0 <= i < |s| :: IsSpace(s[i])
  }

  predicate NoSpace(s: string) {
    forall i | 0 <= i < |s| :: !IsSpace(s[i])
  }

  /** Length of the run of non-separators at the head of `s`. */
  function WordLength(s: string): (n: nat)
    ensures n <= |s| && NoSpace(s[..n]) && (n == |s| || IsSpace(s[n]))
  {
    if s == [] || IsSpace(s[0]) then 0
    else
      var n := 1 + WordLength(s[1..]);
      assert s[..n] == [s[0]] + s[1..][..n - 1];
      n
  }

  /** Ruby's `String#split(" ")`: the maximal runs of non-separators, in order; leading and trailing separators give no field. */
  function Words(s: string): seq<string>
    decreases |s|
  {
    if s == [] then []
    else if IsSpace(s[0]) then Words(s[1..])
    else
      var n := WordLength(s);
      [s[..n]] + Words(s[n..])
  }

  /** Ruby's `Array#first`: nil for an empty array. */
  function First(xs: seq<string>): Option<string> {
    if xs == [] then None else Some(xs[0])
  }

  /** Ruby's `Array#last`: nil for an empty array. */
  function Last(xs: seq<string>): Option<string> {
    if xs == [] then None else Some(xs[|xs| - 1])
  }

  /** The text between slashes in `t`, every field kept: one more field than `t` has slashes. */
  function Fields(t: string): (r: seq<string>)
    ensures |r| >= 1
    decreases |t|
  {
    var i := LastSlash(t);
    if i < 0 then [t] else Fields(t[..i]) + [t[i + 1..]]
  }

  /** Ruby's `split` with no limit drops the empty fields at the end. */
  function DropTrailingEmpty(xs: seq<string>): seq<string> {
    if xs == [] then []
    else if xs[|xs| - 1] == [] then DropTrailingEmpty(xs[..|xs| - 1])
    else xs
  }

  /** Ruby's `String#split("/")`. */
  function SplitSlash(t: string): seq<string> {
    DropTrailingEmpty(Fields(t))
  }

  /**
   The recipe's version as written (line 79): None where Ruby raises because the
   output has no first token; otherwise the last slash-field of that token, which
   is nil, interpolated into the install path as "", when the token is all slashes.
   */
  function ParseVersionAsWritten(stdout: string): (v: Option<string>)
    ensures v.None? <==> AllSpace(stdout)
  {
    FirstWordIsLeadingToken(stdout);
    match First(Words(stdout))
    case None => None
    case Some(token) =>
      match Last(SplitSlash(token))
      case Some(v) => Some(v)
      case None => Some("")
  }

  /**
   The version the install uses: as written, except that a token without a
   version also fails the run. Every version it gives is a non-empty name
   without slashes, so the install directory is a direct child of `/opt/awscli/v2`.
   */
  function ParseVersion(stdout: string): (v: Option<string>)
    ensures v.Some? ==> v.value != "" && NoSlash(v.value)
  {
    match First(Words(stdout))
    case None => None
    case Some(token) =>
      var v := Last(SplitSlash(token));
      assert v.Some? ==> v.value != "" && NoSlash(v.value) by {
        LastSlashFieldIsBasename(token);
        if !AllSlash(token) {
          BasenameNotEmpty(TrimSlashes(token));
        }
      }
      v
  }

  // Reference definitions, independent of the splitting functions.

  /** Number of separators at the head of `s`. */
  function LeadingSpaces(s: string): (k: nat)
    ensures k <= |s| && AllSpace(s[..k]) && (k == |s| || !IsSpace(s[k]))
  {
    if s == [] || !IsSpace(s[0]) then 0
    else
      var k := 1 + LeadingSpaces(s[1..]);
      assert s[..k] == [s[0]] + s[1..][..k - 1];
      k
  }

  /** `t` without the slashes at its end. */
  function TrimSlashes(t: string): (u: string)
    ensures u <= t && AllSlash(t[|u|..]) && (u == [] || u[|u| - 1] != '/')
  {
    if t != [] && t[|t| - 1] == '/' then
      var u := TrimSlashes(t[..|t| - 1]);
      assert t[|u|..] == t[..|t| - 1][|u|..] + ['/'];
      u
    else t
  }

  lemma {:induction false} WordLengthOf(w: string, rest: string)
    requires NoSpace(w) && (rest == [] || IsSpace(rest[0]))
    ensures WordLength(w + rest) == |w|
    decreases |w|
  {
    if w != [] {
      assert (w + rest)[1..] == w[1..] + rest;
      WordLengthOf(w[1..], rest);
    }
  }

  /** The first field of `ws + w + rest` is `w` when `ws` is separators and `w` is a whole token. */
  lemma {:induction false} FirstWordOf(ws: string, w: string, rest: string)
    requires AllSpace(ws) && w != [] && NoSpace(w) && (rest == [] || IsSpace(rest[0]))
    ensures First(Words(ws + w + rest)) == Some(w)
    decreases |ws|
  {
    var s := ws + w + rest;
    if ws == [] {
      assert s == w + rest;
      WordLengthOf(w, rest);
      assert s[..|w|] == w;
    } else {
      assert s[1..] == ws[1..] + w + rest;
      FirstWordOf(ws[1..], w, rest);
    }
  }

  /** The token after the leading separators of `s`: the first run of non-separators. */
  function LeadingToken(s: string): (w: string)
    ensures NoSpace(w)
  {
    var t := s[LeadingSpaces(s)..];
    t[..WordLength(t)]
  }

  lemma LeadingTokenAfterSpace(s: string)
    requires s != [] && IsSpace(s[0])
    ensures LeadingToken(s) == LeadingToken(s[1..])
    ensures AllSpace(s) <==> AllSpace(s[1..])
  {
    var k, k' := LeadingSpaces(s), LeadingSpaces(s[1..]);
    assert k == k' + 1;
    assert s[k..] == s[1..][k'..];
  }

  /**
   The first field is the token after the leading separators, and there is none
   exactly when the output is all separators.
   */
  lemma {:induction false} FirstWordIsLeadingToken(s: string)
    ensures First(Words(s)) == if AllSpace(s) then None else Some(LeadingToken(s))
    decreases |s|
  {
    if s != [] {
      if IsSpace(s[0]) {
        FirstWordIsLeadingToken(s[1..]);
        LeadingTokenAfterSpace(s);
      } else {
        assert !AllSpace(s);
        assert s[LeadingSpaces(s)..] == s;
      }
    }
  }

  /** A path ending in a slash has an empty last field and an empty base name. */
  lemma EndsInSlash(t: string)
    requires t != [] && t[|t| - 1] == '/'
    ensures Fields(t) == Fields(t[..|t| - 1]) + [[]] && Basename(t) == []
  {
    assert LastSlash(t) == |t| - 1;
    assert t[|t|..] == [];
  }

  /**
   Ruby's `token.split("/").last` is the base name of the token once its trailing
   slashes are dropped, and nil exactly when the token is all slashes.
   */
  lemma {:induction false} LastSlashFieldIsBasename(t: string)
    ensures Last(SplitSlash(t)) == if AllSlash(t) then None else Some(Basename(TrimSlashes(t)))
    decreases |t|
  {
    if t != [] {
      var t' := t[..|t| - 1];
      if t[|t| - 1] == '/' {
        LastSlashFieldIsBasename(t');
        EndsInSlash(t);
        var r := Fields(t');
        assert (r + [[]])[..|r + [[]]| - 1] == r;
        assert SplitSlash(t) == DropTrailingEmpty(r);
        assert AllSlash(t) <==> AllSlash(t');
      } else {
        var i := LastSlash(t);
        assert i < |t| - 1;
        assert Fields(t)[|Fields(t)| - 1] == t[i + 1..] != [];
        assert SplitSlash(t) == Fields(t);
        assert !AllSlash(t);
      }
    } else {
      var none: seq<string> := [];
      assert Fields(t) == [[]] && Fields(t)[..0] == none;
      assert SplitSlash(t) == none;
    }
  }

  lemma {:induction false} NoSlashHasNoLastSlash(v: string)
    requires NoSlash(v)
    ensures LastSlash(v) == -1
    decreases |v|
  {
    if v != [] {
      NoSlashHasNoLastSlash(v[..|v| - 1]);
    }
  }

  /** The base name of a path that does not end in a slash is not empty. */
  lemma BasenameNotEmpty(u: string)
    requires u != [] && u[|u| - 1] != '/'
    ensures Basename(u) != []
  {
  }

  /** The base name of `pre + v` is `v` when `pre` is empty or ends in the slash before `v`. */
  lemma BasenameAfterSlash(pre: string, v: string)
    requires NoSlash(v) && (pre == [] || pre[|pre| - 1] == '/')
    ensures Basename(pre + v) == v
  {
    if pre == [] {
      NoSlashHasNoLastSlash(v);
      assert pre + v == v;
    } else {
      var dir := pre[..|pre| - 1];
      assert pre + v == Join(dir, v);
      LastSlashOfJoin(dir, v);
    }
  }

  /** A token `pre + v + post`, with `v` a slash-free field after the last inner slash and `post` only slashes, yields `v`. */
  lemma VersionOfToken(pre: string, v: string, post: string)
    requires v != [] && NoSlash(v) && AllSlash(post) && (pre == [] || pre[|pre| - 1] == '/')
    ensures Last(SplitSlash(pre + v + post)) == Some(v)
  {
    var u := pre + v;
    var t := u + post;
    assert u[|u| - 1] == v[|v| - 1];
    assert t[|u| - 1] == u[|u| - 1];
    TrimmedTokenOf(u, post);
    BasenameAfterSlash(pre, v);
    LastSlashFieldIsBasename(t);
  }

  lemma {:induction false} TrimmedTokenOf(u: string, post: string)
    requires u != [] && u[|u| - 1] != '/' && AllSlash(post)
    ensures TrimSlashes(u + post) == u
    decreases |post|
  {
    if post != [] {
      assert (u + post)[..|u + post| - 1] == u + post[..|post| - 1];
      TrimmedTokenOf(u, post[..|post| - 1]);
    } else {
      assert u + post == u;
    }
  }

  /**
   Output that starts with a `<program>/<version>` token: the version is the text
   after the token's last slash, whatever follows the first separator.
   */
  lemma VersionOfBanner(pre: string, v: string, sep: char, tail: string)
    requires NoSpace(pre) && (pre == [] || pre[|pre| - 1] == '/')
    requires v != [] && NoSpace(v) && NoSlash(v) && IsSpace(sep)
    ensures ParseVersion(pre + v + [sep] + tail) == Some(v)
  {
    var token := pre + v;
    assert NoSpace(token);
    var rest := [sep] + tail;
    assert pre + v + [sep] + tail == "" + token + rest;
    FirstWordOf("", token, rest);
    assert token == pre + v + "";
    VersionOfToken(pre, v, "");
  }

  /** The example banner in the recipe's comment, token and rest written apart, yields 2.12.6. */
  lemma ParseAwsCliBanner()
    ensures ParseVersion("aws-cli/" + "2.12.6" + " " + "Python/3.11.4 Linux/5.15.49-linuxkit-pr exe/aarch64.ubuntu.22 prompt/off") == Some("2.12.6")
  {
    VersionOfBanner("aws-cli/", "2.12.6", ' ', "Python/3.11.4 Linux/5.15.49-linuxkit-pr exe/aarch64.ubuntu.22 prompt/off");
  }

  /** A first token that is all slashes: as written the version is "", the corrected parse fails. */
  lemma SlashTokenPublishesEmptyVersion()
    ensures ParseVersionAsWritten("/ aws") == Some("")
    ensures ParseVersion("/ aws") == None
  {
    assert "/ aws" == "" + "/" + " aws";
    FirstWordOf("", "/", " aws");
    LastSlashFieldIsBasename("/");
  }

  /** The corrected parse differs from the recipe's only on a first token made of slashes. */
  lemma AsWrittenDiffersOnlyOnSlashTokens(stdout: string)
    ensures ParseVersionAsWritten(stdout) ==
      match ParseVersion(stdout)
      case Some(v) => Some(v)
      case None => if AllSpace(stdout) then None else Some("")
  {
    FirstWordIsLeadingToken(stdout);
  }
}
